=== FILE: README.md ===
# Camera rig controller, modelled in Dafny

This project models the per-frame core of a Unity camera rig
(`MovementCamera.CameraManager`) and the three input sources that drive it:

- **Input sources.** The keyboard, mouse and on-screen work-field sources each
  turn one frame's key, pointer, button and scroll state into a sequence of
  move, rotate and zoom events (`Keyboard`, `Mouse` and `UI` modules; the
  event type is in `InputEvents`).
- **Accumulators.** The camera manager adds every delivered event into three
  per-frame accumulators (`_frameMove`, `_frameRotate`, `_frameZoom`).
- **`LateUpdate`.** It consumes the accumulators. It scales the move by the
  speed factors, turns it into world space and clamps the rig's x and z to
  the bounds rectangle. It applies the turn. It dispatches the zoom by sign
  to the active zoom strategy. Then it resets the accumulators.
- **Zoom strategies** (`Zoom` module). The orthographic one clamps the
  camera's orthographic size. The perspective one clamps a zoom level and
  places the camera at `direction * level`.
- **Follow task.** Once a target is set, every frame lerps the rig toward it
  until its position equals the target's. The engine compares positions
  within a small tolerance; the model compares them exactly.

Every float is a `real`, and the engine's vector helpers (`Mathf.Clamp`,
`Vector3.Lerp`, …) are written out in `Vectors`. A frame is modelled in
`CameraManager.Tick`: the events arrive, the follow task takes one step, and
`LateUpdate` runs. Engine services become parameters:

- `toWorld(yaw, v)` stands for `transform.TransformDirection`.
- `normalize` stands for `Vector3.normalized`.
- The frame time `dt`, the held keys, the pointer position, the button
  state, the scroll delta, the screen size and the work-field corners are
  all passed in.

The rig's orientation is the yaw it has accumulated. Only yaw rotations are
ever applied.

The rotate delegate is declared over a `Vector2`, yet the camera manager adds
a `float` and the mouse publishes a `float`. The model carries a rotate
event as one real, the keyboard's x component.

## Behaviour worth knowing

- **Follow task exit.** The loop test at `CameraManager.cs:78` ends the
  loop in two ways: the target becomes null (Escape calls `SetTarget(null)`
  at `CameraManager.cs:60-63`, or the target object is destroyed), or the
  rig reaches it. The second test is the engine's vector `!=`, which treats
  positions closer than about 1e-5 as equal, and the step at
  `CameraManager.cs:88` is a single-precision lerp. While the target stays
  set, the loop ends only if rounding brings the rig within about 1e-5 of
  the target. Once a step's offset is below half a unit in the last
  place of the position, the sum rounds back to the position and the rig
  stops moving; for a distant target that stall can lie outside the
  tolerance, and then the loop runs forever. The model works over the reals
  and compares exactly (`FollowContinues`), so neither the tolerance nor the
  stall appears in it. `FollowNeverArrives` is a statement about the exact
  comparison: with frame times below one second the rig never lands on the
  target.
- **Follow target position.** The follow task lerps toward the target's full
  3D position, height included.
- **Follow and manual move.** Following does not suppress manual moves: both
  apply in the same frame.
- **Follow and bounds.** Only the move stage of `LateUpdate` clamps to the
  bounds, and only when there is move input. The follow step is never
  clamped, so a target outside the bounds pulls the rig out of them
  (`CameraManager.FollowCanLeaveBounds`).
- **Orthographic `ZoomOut`.** It takes `Max` of the new size and the far
  limit. The size therefore jumps up to the far limit from below and grows
  without bound above it (`Zoom.OrthographicZoomOutOvershoots`,
  `Zoom.OrthographicZoomOutUnbounded`). The model keeps this behaviour.
- **What the rig does not have.** There are no enable flags, no obstruction
  avoidance, no drag-shift, no pitch, and no speed scaling. The keyboard
  publishes a speed-scale pulse, but nothing subscribes to it.

## Model

| member | source | states |
|---|---|---|
| `Vectors.Clamp` | Assets/Scripts/CameraMovement/CameraManager.cs:169-171 | a value below the lower limit becomes that limit; otherwise a value above the upper limit becomes that limit; a value inside is kept; with ordered limits the result lies between them |
| `Vectors.ClampIdempotent` | Assets/Scripts/CameraMovement/CameraManager.cs:169-171 | with ordered limits, clamping twice is clamping once |
| `Vectors.ClampInvertedNotIdempotent` | Assets/Scripts/CameraMovement/CameraManager.cs:169 | with the lower limit above the upper one the clamp flips: 4 clamped to (5, 3) is 5, and clamped again is 3 |
| `Vectors.Lerp` | Assets/Scripts/CameraMovement/CameraManager.cs:88-89 | the result's offset from the target is the start's offset shrunk by `1 - clamp01(t)`; `t <= 0` gives the start and `t >= 1` the target |
| `Zoom.NewOrthographic` | Assets/Scripts/CameraMovement/ZoomManager/OrtographicZoomBehaviour.cs:8-11 | construction sets the orthographic size to the starting zoom and leaves the camera position alone |
| `Zoom.OrthographicZoomIn` | Assets/Scripts/CameraMovement/ZoomManager/OrtographicZoomBehaviour.cs:13-18 | a size exactly at the near limit is unchanged; otherwise the size ends at or above the near limit, equal either to it or to `size - delta`, and to `size - delta` whenever that is above the limit; only the size changes |
| `Zoom.OrthographicZoomOut` | Assets/Scripts/CameraMovement/ZoomManager/OrtographicZoomBehaviour.cs:20-25 | a size exactly at the far limit is unchanged; otherwise the size ends at or above the far limit: exactly the limit when `size + delta` does not pass it, `size + delta` when it does; only the size changes |
| `Zoom.ZoomInIdempotentAtLimit` | Assets/Scripts/CameraMovement/ZoomManager/OrtographicZoomBehaviour.cs:15-17 | once a zoom-in lands on the near limit, a further zoom-in by any step changes nothing, for both strategies |
| `Zoom.ZoomOutIdempotentAtLimit` | Assets/Scripts/CameraMovement/ZoomManager/OrtographicZoomBehaviour.cs:22-24 | once a zoom-out lands on the far limit, a further zoom-out by any step changes nothing, for both strategies |
| `Zoom.OrthographicKeepsNearBound` | Assets/Scripts/CameraMovement/ZoomManager/OrtographicZoomBehaviour.cs:13-25 | a size at or above the near limit stays there under both zoom calls, with near <= far |
| `Zoom.OrthographicZoomOutOvershoots` | Assets/Scripts/CameraMovement/ZoomManager/OrtographicZoomBehaviour.cs:24 | from size 15 with far limit 16 and step 2, zoom-out gives 17 and then 19: the upper limit is not kept |
| `Zoom.OrthographicZoomOutUnbounded` | Assets/Scripts/CameraMovement/ZoomManager/OrtographicZoomBehaviour.cs:20-25 | above the far limit, `n` zoom-outs by `delta` add exactly `n * delta` to the size |
| `Zoom.NewPerspective` | Assets/Scripts/CameraMovement/ZoomManager/PerspectiveZoomBehaviour.cs:11-16 | the direction is the normalisation of `(0, abs(offset.y), -abs(offset.x))`, the level is the starting zoom, and the camera sits at `direction * level` |
| `Zoom.PositionCamera` | Assets/Scripts/CameraMovement/ZoomManager/PerspectiveZoomBehaviour.cs:18-21 | afterwards the camera sits at `direction * level`; the orthographic size is untouched |
| `Zoom.PerspectiveZoomIn` | Assets/Scripts/CameraMovement/ZoomManager/PerspectiveZoomBehaviour.cs:23-29 | a level at or below the near limit leaves strategy and camera unchanged; otherwise the new level is at or above the near limit, equals it or `level - delta` (the latter whenever that is above the limit), and the camera is moved to `direction * level` |
| `Zoom.PerspectiveZoomOut` | Assets/Scripts/CameraMovement/ZoomManager/PerspectiveZoomBehaviour.cs:31-37 | a level at or above the far limit leaves strategy and camera unchanged; otherwise the new level is at or below the far limit, equals it or `level + delta` (the latter whenever that is below the limit), and the camera is moved to `direction * level` |
| `Zoom.ZoomIn` | Assets/Scripts/CameraMovement/ZoomManager/IZoomBehaviour.cs:7 | a zoom-in never changes which strategy is active |
| `Zoom.ZoomOut` | Assets/Scripts/CameraMovement/ZoomManager/IZoomBehaviour.cs:8 | a zoom-out never changes which strategy is active |
| `Zoom.PerspectiveZoomInKeepsRange` | Assets/Scripts/CameraMovement/ZoomManager/PerspectiveZoomBehaviour.cs:23-29 | from a level in [near, far] with the camera in place, a non-negative zoom-in keeps the level in [near, far], keeps the camera at `direction * level`, and lowers the level by at most the step |
| `Zoom.PerspectiveZoomOutKeepsRange` | Assets/Scripts/CameraMovement/ZoomManager/PerspectiveZoomBehaviour.cs:31-37 | from a level in [near, far] with the camera in place, a non-negative zoom-out keeps the level in [near, far], keeps the camera at `direction * level`, and raises the level by at most the step |
| `InputEvents.GuardedMovesOnce` | Assets/Scripts/CameraMovement/InputManager/KeyboardManager.cs:30-48 | four independently guarded forward, back, right and left moves hold only unit moves, none twice |
| `InputEvents.AxisMovesOnce` | Assets/Scripts/CameraMovement/InputManager/MouseManager.cs:44-62 | at most one forward-or-back move followed by at most one right-or-left move holds only unit moves, none twice |
| `InputEvents.EmitIf` | Assets/Scripts/CameraMovement/InputManager/KeyboardManager.cs:24-27 | a guarded publish: the event is published exactly when the guard holds, and at most once |
| `Keyboard.VerticalMoveEvents` | Assets/Scripts/CameraMovement/InputManager/KeyboardManager.cs:32-39 | only forward or back moves; forward iff W or Up is held, back iff S or Down is held |
| `Keyboard.HorizontalMoveEvents` | Assets/Scripts/CameraMovement/InputManager/KeyboardManager.cs:40-47 | only right or left moves; right iff D or Right is held, left iff A or Left is held |
| `Keyboard.MoveEvents` | Assets/Scripts/CameraMovement/InputManager/KeyboardManager.cs:30-48 | only the four unit moves, none twice; each of the four directions is published iff one of its two keys is held, independently of the others |
| `Keyboard.TwinKeysPublishOnce` | Assets/Scripts/CameraMovement/InputManager/KeyboardManager.cs:32 | a key held with its arrow twin still publishes its move once: each move occurs at most once in the frame |
| `Keyboard.RotateEvents` | Assets/Scripts/CameraMovement/InputManager/KeyboardManager.cs:50-60 | only turns of -1 and +1, none twice; a turn of -1 iff E is held and of +1 iff Q is held, both when both are held |
| `Keyboard.ZoomEvents` | Assets/Scripts/CameraMovement/InputManager/KeyboardManager.cs:62-72 | only zooms of -1 and +1, none twice; a zoom of -1 iff Z is held and of +1 iff X is held |
| `Keyboard.SpeedScaleEvents` | Assets/Scripts/CameraMovement/InputManager/KeyboardManager.cs:22-28 | the speed-scale pulse fires exactly while left shift is held, and at most once |
| `Keyboard.Update` | Assets/Scripts/CameraMovement/InputManager/KeyboardManager.cs:14-20 | the frame carries the speed-scale pulse iff left shift is held; no key held publishes nothing |
| `Mouse.PointerValid` | Assets/Scripts/CameraMovement/InputManager/MouseManager.cs:31-34 | the test with the factors 1 and -0 holds exactly when the pointer is inside [0, W] x [0, H], borders included |
| `Mouse.MoveEvents` | Assets/Scripts/CameraMovement/InputManager/MouseManager.cs:44-62 | only the four unit moves, none twice, at most two; forward iff y > 0.95 H, back iff y < 0.05 H, right iff x > 0.95 W, left iff x < 0.05 W; never both of an opposite pair; nothing in the central band |
| `Mouse.MoveEventsSplit` | Assets/Scripts/CameraMovement/InputManager/MouseManager.cs:44-62 | the edge bands of an axis never overlap, so each axis's `if`/`else if` is two independent guarded publishes |
| `Mouse.RotateEvents` | Assets/Scripts/CameraMovement/InputManager/MouseManager.cs:64-80 | on the press frame the pointer x is recorded and nothing is published; while held, -1 left of the recorded x, +1 right of it, nothing on it or when released |
| `Mouse.ZoomEvents` | Assets/Scripts/CameraMovement/InputManager/MouseManager.cs:81-91 | scrolling up publishes exactly a zoom of -3, down exactly +3, no scroll nothing (each an if-and-only-if) |
| `Mouse.Update` | Assets/Scripts/CameraMovement/InputManager/MouseManager.cs:28-42 | a pointer outside [0, W] x [0, H] publishes nothing and keeps the state; inside, the frame's events are those of the three handlers and the rotation state is the rotate handler's |
| `UI.PointerValid` | Assets/Scripts/CameraMovement/InputManager/UIManager.cs:26-29 | holds exactly when the pointer is inside the rectangle between corners 1 and 3, borders included; a valid pointer implies that rectangle is not empty |
| `UI.MoveEvents` | Assets/Scripts/CameraMovement/InputManager/UIManager.cs:37-55 | only the four unit moves, none twice, at most two; forward iff within `retreat` of the top, back iff not forward and within `retreat` of the bottom, and likewise right before left; never both of an opposite pair |
| `UI.MoveEventsSplit` | Assets/Scripts/CameraMovement/InputManager/UIManager.cs:37-55 | each axis's `if`/`else if` is a guarded forward (right) publish followed by a back (left) publish guarded by the first test failing |
| `UI.Update` | Assets/Scripts/CameraMovement/InputManager/UIManager.cs:23-35 | a pointer outside the field publishes nothing; inside, exactly the edge moves of `MoveEvents` are published; rotations and zooms never are |
| `CameraManager.UpdateFrameMove` | Assets/Scripts/CameraMovement/CameraManager.cs:123-126 | the move accumulator grows by the vector and the other two are unchanged |
| `CameraManager.UpdateFrameRotate` | Assets/Scripts/CameraMovement/CameraManager.cs:128-131 | the rotate accumulator grows by the amount and the other two are unchanged |
| `CameraManager.UpdateFrameZoom` | Assets/Scripts/CameraMovement/CameraManager.cs:133-136 | the zoom accumulator grows by the amount and the other two are unchanged |
| `CameraManager.Receive` | Assets/Scripts/CameraMovement/CameraManager.cs:93-106 | delivering an event through the subscriptions adds exactly its entry in the reference table `Contribution`: a move its vector, a turn or zoom its amount, the speed-scale pulse nothing |
| `CameraManager.AccumulateAddsTotal` | Assets/Scripts/CameraMovement/CameraManager.cs:93-106 | delivering a frame's events to the subscribed handlers adds exactly the sum of the events' contributions to the accumulators |
| `CameraManager.TotalAppend` | Assets/Scripts/CameraMovement/CameraManager.cs:123-136 | the contributions of two event sequences delivered one after the other add up |
| `CameraManager.TotalRemove` | Assets/Scripts/CameraMovement/CameraManager.cs:123-136 | taking one event out of a sequence takes exactly its contribution out of the sum |
| `CameraManager.TotalCons` | Assets/Scripts/CameraMovement/CameraManager.cs:123-136 | the total of a sequence is its head's contribution added to the total of the rest |
| `CameraManager.TotalPermutation` | Assets/Scripts/CameraMovement/CameraManager.cs:123-136 | two sequences holding the same events (as multisets) have the same sum |
| `CameraManager.AccumulateOrderIndependent` | Assets/Scripts/CameraMovement/CameraManager.cs:123-136 | the accumulators after a frame depend only on which events arrived, not on their order |
| `CameraManager.TotalEmitIf` | Assets/Scripts/CameraMovement/InputManager/KeyboardManager.cs:24-27 | a guarded publish contributes its event when the guard holds and nothing otherwise |
| `CameraManager.ForwardBackNet` | Assets/Scripts/CameraMovement/InputManager/KeyboardManager.cs:32-39 | a guarded forward and a guarded back add the difference of their guards' indicators along z |
| `CameraManager.RightLeftNet` | Assets/Scripts/CameraMovement/InputManager/KeyboardManager.cs:40-47 | a guarded right and a guarded left add the difference of their guards' indicators along x |
| `CameraManager.TurnNet` | Assets/Scripts/CameraMovement/InputManager/KeyboardManager.cs:52-59 | a guarded turn of -1 and one of +1 add the difference of their guards' indicators to the turn |
| `CameraManager.ZoomNet` | Assets/Scripts/CameraMovement/InputManager/KeyboardManager.cs:64-71 | a guarded zoom of `-step` and one of `+step` add `step` times the difference of their guards' indicators to the zoom |
| `CameraManager.KeyboardVerticalNet` | Assets/Scripts/CameraMovement/InputManager/KeyboardManager.cs:32-39 | the keyboard's forward/back moves add `[W or Up] - [S or Down]` along z |
| `CameraManager.KeyboardHorizontalNet` | Assets/Scripts/CameraMovement/InputManager/KeyboardManager.cs:40-47 | the keyboard's right/left moves add `[D or Right] - [A or Left]` along x |
| `CameraManager.KeyboardRotateNet` | Assets/Scripts/CameraMovement/InputManager/KeyboardManager.cs:50-60 | the keyboard's turns add `[Q] - [E]` |
| `CameraManager.KeyboardZoomNet` | Assets/Scripts/CameraMovement/InputManager/KeyboardManager.cs:62-72 | the keyboard's zooms add `[X] - [Z]` |
| `CameraManager.KeyboardHandlerNets` | Assets/Scripts/CameraMovement/InputManager/KeyboardManager.cs:22-72 | each keyboard handler's net on its own; the speed-scale pulse adds nothing because nothing subscribes to it |
| `CameraManager.UpdateSplits` | Assets/Scripts/CameraMovement/InputManager/KeyboardManager.cs:14-20 | a keyboard frame is the move, rotate, zoom and speed-scale handlers' events, in that order |
| `CameraManager.KeyboardMoveTotal` | Assets/Scripts/CameraMovement/InputManager/KeyboardManager.cs:30-48 | the four guarded key moves add `KeyboardMove`: `[D or Right] - [A or Left]` along x and `[W or Up] - [S or Down]` along z |
| `CameraManager.KeyboardTurnTotal` | Assets/Scripts/CameraMovement/InputManager/KeyboardManager.cs:50-60 | the guarded turns of E and Q add `[Q] - [E]` |
| `CameraManager.KeyboardZoomTotal` | Assets/Scripts/CameraMovement/InputManager/KeyboardManager.cs:62-72 | the guarded zooms of Z and X add `[X] - [Z]` |
| `CameraManager.TotalIgnoresPulse` | Assets/Scripts/CameraMovement/CameraManager.cs:93-106 | appending the speed-scale pulse, which nothing subscribes to, leaves the total unchanged |
| `CameraManager.KeyboardPartsNet` | Assets/Scripts/CameraMovement/InputManager/KeyboardManager.cs:14-72 | the keyboard handlers' guarded publishes laid end to end add `KeyboardNet`: the move `KeyboardMove`, the turn `[Q] - [E]` and the zoom `[X] - [Z]`, the speed-scale pulse adding nothing |
| `CameraManager.KeyboardNetInput` | Assets/Scripts/CameraMovement/CameraManager.cs:95-97 | a keyboard frame adds `([D or Right] - [A or Left], 0, [W or Up] - [S or Down])` to the move, `[Q] - [E]` to the turn and `[X] - [Z]` to the zoom |
| `CameraManager.OppositeKeysCancel` | Assets/Scripts/CameraMovement/InputManager/KeyboardManager.cs:30-72 | W with S adds no forward motion, D with A no sideways motion, Q with E no turn, Z with X no zoom |
| `CameraManager.EdgeMovesNet` | Assets/Scripts/CameraMovement/InputManager/MouseManager.cs:44-62 | guarded forward, back, right and left moves add `([right] - [left], 0, [forward] - [back])` |
| `CameraManager.MouseMoveNet` | Assets/Scripts/CameraMovement/InputManager/MouseManager.cs:44-62 | the mouse's edge moves add `([x > 0.95 W] - [x < 0.05 W], 0, [y > 0.95 H] - [y < 0.05 H])` |
| `CameraManager.MouseRotateNet` | Assets/Scripts/CameraMovement/InputManager/MouseManager.cs:64-80 | the drag turn adds +1 right of the recorded x and -1 left of it, only while held after the press frame |
| `CameraManager.MouseZoomNet` | Assets/Scripts/CameraMovement/InputManager/MouseManager.cs:81-91 | the scroll adds a zoom of `3 * ([scroll down] - [scroll up])` |
| `CameraManager.MouseValidFrameNet` | Assets/Scripts/CameraMovement/InputManager/MouseManager.cs:38-41 | with the pointer on the screen, the whole frame adds exactly `MouseNet`: the move, turn and zoom handlers' nets side by side |
| `CameraManager.MouseNetInput` | Assets/Scripts/CameraMovement/InputManager/MouseManager.cs:28-42 | a pointer off the screen adds nothing; a pointer on it adds exactly `MouseNet`: the edge bands' indicator differences, the drag's sign, and 3 against the scroll |
| `CameraManager.MouseFrameTurn` | Assets/Scripts/CameraMovement/InputManager/MouseManager.cs:38-41 | with the pointer on the screen, a frame's turn is `MouseTurn`: +1 or -1 by the side of the recorded x, only while held after the press frame |
| `CameraManager.MouseDragTurnsBySign` | Assets/Scripts/CameraMovement/InputManager/MouseManager.cs:64-80 | a press at x0 turns nothing; holding on the next frame at x turns by `[x > x0] - [x < x0]`, the sign of the travel |
| `CameraManager.UINetInput` | Assets/Scripts/CameraMovement/InputManager/UIManager.cs:23-55 | a pointer outside the field adds nothing; inside, `[right] - [not right and left]` along x and `[top] - [not top and bottom]` along z, where each test is being within `retreat` of that edge |
| `CameraManager.SpeedModified` | Assets/Scripts/CameraMovement/CameraManager.cs:142 | x is scaled by the lateral speed, z by the in-out speed, y is left unscaled |
| `CameraManager.LockPositionInBounds` | Assets/Scripts/CameraMovement/CameraManager.cs:166-173 | y is untouched; x is clamped to the x-range of the bounds and z to their y-range, each by `Clamp`; with ordered bounds x and z end inside them; a position already inside does not move |
| `CameraManager.LockPositionInBoundsIdempotent` | Assets/Scripts/CameraMovement/CameraManager.cs:166-173 | with ordered bounds, locking twice is locking once |
| `CameraManager.LockInvertedBoundsNotIdempotent` | Assets/Scripts/CameraMovement/CameraManager.cs:169 | with the minimum x above the maximum, a second lock moves the rig again |
| `CameraManager.MoveStage` | Assets/Scripts/CameraMovement/CameraManager.cs:140-146 | a zero move leaves the position alone; a non-zero one lands on the bounds lock of the unclamped world-space step, so y changes by the step only, the result is inside ordered bounds, and it is the unclamped step itself when that is inside |
| `CameraManager.ZoomStage` | Assets/Scripts/CameraMovement/CameraManager.cs:154-163 | a negative zoom accumulator zooms in by `dt * abs(zoom) * zoomSpeed`, a positive one zooms out by `dt * zoom * zoomSpeed`, zero calls neither |
| `CameraManager.LateUpdate` | Assets/Scripts/CameraMovement/CameraManager.cs:138-164 | all three accumulators are zero afterwards; the position is the move stage's; the yaw grows by `rotate * dt * rotateSpeed`; the zoom strategy is the zoom stage's |
| `CameraManager.Move` | Assets/Scripts/CameraMovement/CameraManager.cs:85-90 | with no target the position is unchanged; with one it becomes `lerp(position, target, dt)` |
| `CameraManager.SetTarget` | Assets/Scripts/CameraMovement/CameraManager.cs:66-74 | the target is recorded and the follow loop runs iff there is one |
| `CameraManager.FollowContinues` | Assets/Scripts/CameraMovement/CameraManager.cs:78 | the loop continues only with a target, and then exactly while the rig is not on it (exact comparison, see "Behaviour worth knowing") |
| `CameraManager.FollowFrame` | Assets/Scripts/CameraMovement/CameraManager.cs:76-83 | the loop keeps running exactly while it was running, a target exists and the rig is not exactly on it; a running step lerps toward the target; a stopped loop leaves the position alone |
| `CameraManager.LerpShortOfTarget` | Assets/Scripts/CameraMovement/CameraManager.cs:88-89 | a lerp with `dt < 1` from a point off the target never lands exactly on it |
| `CameraManager.FollowNeverArrives` | Assets/Scripts/CameraMovement/CameraManager.cs:76-83 | under the model's exact comparison over the reals, with every frame time below one second the loop keeps running and the rig never reaches the target |
| `CameraManager.FollowArrivesWithFullStep` | Assets/Scripts/CameraMovement/CameraManager.cs:76-89 | a frame time of at least one second lands on the target, and the next frame ends the loop |
| `CameraManager.Tick` | Assets/Scripts/CameraMovement/CameraManager.cs:76-164 | after a frame the accumulators are zero and the target is unchanged; the position, the yaw and the zoom depend on the events only through their sum, the yaw turning by the summed rotate times `dt` and the rotate speed; no net move and no running follow leave the position unchanged |
| `CameraManager.TickOrderIndependent` | Assets/Scripts/CameraMovement/CameraManager.cs:93-136 | a frame's outcome depends on which events arrived, not on their order |
| `CameraManager.TickKeepsBounds` | Assets/Scripts/CameraMovement/CameraManager.cs:140-146 | without a running follow, a rig inside ordered bounds stays inside after any frame |
| `CameraManager.TickWithoutInputOnlyFollows` | Assets/Scripts/CameraMovement/CameraManager.cs:138-164 | with empty accumulators and no events, a frame moves the rig only by the follow step and leaves the zoom alone |
| `CameraManager.FollowCanLeaveBounds` | Assets/Scripts/CameraMovement/CameraManager.cs:85-90 | a follow target at x = 10 pulls a rig starting inside the default zero bounds out of them in one half-second frame |
| `CameraManager.ZoomStageKeepsPerspectiveRange` | Assets/Scripts/CameraMovement/CameraManager.cs:154-163 | with non-negative frame time and zoom speed, the zoom stage keeps a perspective level in [near, far] and the camera at `direction * level` |
| `CameraManager.ZoomStageInKeepsRange` | Assets/Scripts/CameraMovement/CameraManager.cs:154-158 | the zoom-in branch of the above |
| `CameraManager.ZoomStageOutKeepsRange` | Assets/Scripts/CameraMovement/CameraManager.cs:159-163 | the zoom-out branch of the above |
| `CameraManager.TickKeepsPerspectiveRange` | Assets/Scripts/CameraMovement/CameraManager.cs:138-164 | a whole frame keeps a perspective level in [near, far] and the camera in place |
| `CameraManager.DefaultOrthographicScenario` | Assets/Scripts/CameraMovement/CameraManager.cs:23-26 | with the default limits, a size starting at 5 zooms in by 10 to exactly 2, and a second zoom-in changes nothing |

## Left out

- Engine lifecycle and wiring are not modelled: `Awake`, `OnEnable`/`OnDisable`, `OnApplicationFocus`, and the `Input`, `Screen` and `RectTransform` reads. Their values are parameters. Event delivery is modelled by `Receive`, which routes each event to the accumulator `OnEnable` subscribes it to.
- `Awake`'s initial camera placement and `LookAt` are not modelled; they are engine transform calls.
- Rotation maths is not modelled. `transform.Rotate` becomes a yaw sum, and `TransformDirection` is the uninterpreted `toWorld`.
- The square root in `normalized` is not modelled; the perspective constructor takes `normalize` as a parameter.
- Coroutine scheduling is not modelled. A repeated `SetTarget` can start overlapping coroutines; the model runs one follow step per frame.
- The F1/F2/F3/Escape test hotkeys in `CameraManager.Update` are left out. They only call `SetTarget`, which is modelled.
- `Assets/Scripts/TestController/CameraController.cs` is not part of this model. It is a separate test controller, not the shipped rig.
- Float rounding is not modelled. Unity's `Vector3 ==` and `!=` compare within a small tolerance; the model compares exactly (the `_frameMove != Vector3.zero` test, the follow loop test).
- CameraManager.FollowContinues: compares positions exactly over the reals, where the engine's `!=` allows a tolerance of about 1e-5 and the lerp rounds to single precision. While the target stays set, whether the program's loop ends depends on both: it ends if rounding lands within the tolerance, and it can stall short of it and run forever. Clearing the target ends it in the model as in the program. `FollowNeverArrives` speaks of the exact comparison only.
- The target moving while the rig follows it is not modelled. The target position is fixed for the run of `FollowRun`.
- The screen is cached at `Awake` and on focus; the model takes it as a parameter of every frame.
- `CameraManager.ZoomStageKeepsPerspectiveRange`: requires non-negative frame time and zoom speed. The code does not check this, and a negative step can leave the range.
- `CameraManager.TickKeepsBounds`: requires that no follow task is running, because a running follow is not clamped (`CameraManager.FollowCanLeaveBounds`).

=== FILE: camera_manager.dfy ===
/**
 The camera rig's per-frame pipeline
 (Assets/Scripts/CameraMovement/CameraManager.cs): input events are added
 into three accumulators during the frame; `LateUpdate` consumes them,
 moving the rig (then clamping x and z to the bounds rectangle), turning it
 about the vertical axis and dispatching the zoom to the active zoom
 strategy; a follow target, when set, pulls the rig toward it once per
 frame until the rig stands on it (exactly, in this model).

 The engine's rotation maths is not modelled: the rig's orientation is the
 yaw it has accumulated, and `TransformDirection` is a parameter
 `toWorld(yaw, v)` that turns a rig-local direction into a world one.
 */
module CameraManager {
  import opened Vectors
  import opened Zoom
  import opened InputEvents
  import Keyboard
  import Mouse
  import UI

  // ---------------------------------------------------------------------
  // Accumulators
  // ---------------------------------------------------------------------

  /** `_frameMove`, `_frameRotate` and `_frameZoom`. */
  datatype FrameInput = FrameInput(move: Vec3, rotate: real, zoom: real)

  const NoInput: FrameInput := FrameInput(Zero, 0.0, 0.0)

  /** `UpdateFrameMove`: adds into the move accumulator only. */
  function UpdateFrameMove(f: FrameInput, moveVector: Vec3): (r: FrameInput)
    ensures r.move.x - f.move.x == moveVector.x
    ensures r.move.y - f.move.y == moveVector.y
    ensures r.move.z - f.move.z == moveVector.z
    ensures r.rotate == f.rotate && r.zoom == f.zoom
  {
    f.(move := Add(f.move, moveVector))
  }

  /** `UpdateFrameRotate`: adds into the rotate accumulator only. */
  function UpdateFrameRotate(f: FrameInput, rotateAmount: real): (r: FrameInput)
    ensures r.rotate - f.rotate == rotateAmount
    ensures r.move == f.move && r.zoom == f.zoom
  {
    f.(rotate := f.rotate + rotateAmount)
  }

  /** `UpdateFrameZoom`: adds into the zoom accumulator only. */
  function UpdateFrameZoom(f: FrameInput, zoomAmount: real): (r: FrameInput)
    ensures r.zoom - f.zoom == zoomAmount
    ensures r.move == f.move && r.rotate == f.rotate
  {
    f.(zoom := f.zoom + zoomAmount)
  }

  /**
   What one event adds to the accumulators, as a reference table: a move
   adds its vector, a turn or a zoom its amount, the speed-scale pulse
   nothing.
   */
  function Contribution(e: InputEvent): FrameInput {
    match e
    case MoveInput(v) => FrameInput(v, 0.0, 0.0)
    case RotateInput(a) => FrameInput(Zero, a, 0.0)
    case ZoomInput(z) => FrameInput(Zero, 0.0, z)
    case SpeedScale => NoInput
  }

  /**
   The subscriptions of `OnEnable`: every source's move, rotate and zoom
   events reach the matching accumulator; nothing subscribes to the
   keyboard's speed-scale pulse, so it changes nothing.
   */
  function Receive(f: FrameInput, e: InputEvent): (r: FrameInput)
    ensures r == Combine(f, Contribution(e))
  {
    match e
    case MoveInput(v) => UpdateFrameMove(f, v)
    case RotateInput(a) => UpdateFrameRotate(f, a)
    case ZoomInput(z) => UpdateFrameZoom(f, z)
    case SpeedScale => f
  }

  /** The frame's events delivered one after another, in the order given. */
  function Accumulate(f: FrameInput, es: seq<InputEvent>): FrameInput
    decreases |es|
  {
    if es == [] then f else Accumulate(Receive(f, es[0]), es[1..])
  }

  /** Component-wise sum of two accumulator states. */
  function Combine(a: FrameInput, b: FrameInput): FrameInput {
    FrameInput(Add(a.move, b.move), a.rotate + b.rotate, a.zoom + b.zoom)
  }

  /** Summing accumulator states is associative. */
  lemma CombineAssociative(a: FrameInput, b: FrameInput, c: FrameInput)
    ensures Combine(a, Combine(b, c)) == Combine(Combine(a, b), c)
  {
  }

  /** Two states added onto a third can be added in either order. */
  lemma CombineSwap(a: FrameInput, b: FrameInput, c: FrameInput)
    ensures Combine(a, Combine(b, c)) == Combine(b, Combine(a, c))
  {
  }

  /**
   The reference definition of the accumulated input: the sum of every
   event's contribution, independent of any delivery order.
   */
  function Total(es: seq<InputEvent>): FrameInput {
    if es == [] then NoInput else Combine(Contribution(es[0]), Total(es[1..]))
  }

  /** A frame without events adds nothing. */
  lemma NoEventsNoInput()
    ensures Total([]) == NoInput
  {
  }

  /** Delivering `es` adds exactly their total to what was there. */
  lemma {:induction false} AccumulateAddsTotal(f: FrameInput, es: seq<InputEvent>)
    ensures Accumulate(f, es) == Combine(f, Total(es))
    decreases |es|
  {
    if es != [] {
      AccumulateAddsTotal(Receive(f, es[0]), es[1..]);
    }
  }

  /** The total of a concatenation is the sum of the totals. */
  lemma {:induction false} TotalAppend(a: seq<InputEvent>, b: seq<InputEvent>)
    ensures Total(a + b) == Combine(Total(a), Total(b))
    decreases |a|
  {
    if a == [] {
      assert a + b == b;
    } else {
      assert (a + b)[0] == a[0];
      assert (a + b)[1..] == a[1..] + b;
      TotalAppend(a[1..], b);
      CombineAssociative(Contribution(a[0]), Total(a[1..]), Total(b));
    }
  }

  /** Taking one event out of a sequence takes its contribution out of the total. */
  lemma {:induction false} TotalRemove(s: seq<InputEvent>, i: nat)
    requires i < |s|
    ensures Total(s) == Combine(Contribution(s[i]), Total(s[..i] + s[i + 1..]))
    decreases |s|
  {
    if i > 0 {
      var rest := s[1..];
      var rest' := rest[..i - 1] + rest[i..];
      TotalRemove(rest, i - 1);
      assert rest[i - 1] == s[i];
      CombineSwap(Contribution(s[0]), Contribution(s[i]), Total(rest'));
      RemoveAfterHead(s, i);
      TotalCons(s[0], rest');
    } else {
      assert s[..0] + s[1..] == s[1..];
    }
  }

  /** Removing a later element keeps the head in front of the rest with that element removed. */
  lemma RemoveAfterHead(s: seq<InputEvent>, i: nat)
    requires 0 < i < |s|
    ensures s[..i] + s[i + 1..] == [s[0]] + (s[1..][..i - 1] + s[1..][i..])
  {
    assert s[..i] == [s[0]] + s[1..][..i - 1];
    assert s[i + 1..] == s[1..][i..];
  }

  /** The total of a sequence with a given head. */
  lemma TotalCons(e: InputEvent, rest: seq<InputEvent>)
    ensures Total([e] + rest) == Combine(Contribution(e), Total(rest))
  {
    var t := [e] + rest;
    assert t[0] == e && t[1..] == rest;
  }

  /** Sequences holding the same events have the same total. */
  lemma {:induction false} TotalPermutation(a: seq<InputEvent>, b: seq<InputEvent>)
    requires multiset(a) == multiset(b)
    ensures Total(a) == Total(b)
    decreases |a|
  {
    if a == [] {
      assert |b| == |multiset(b)| == 0;
    } else {
      assert a[0] in multiset(b);
      var i :| 0 <= i < |b| && b[i] == a[0];
      var b' := b[..i] + b[i + 1..];
      assert b == b[..i] + [b[i]] + b[i + 1..];
      assert multiset(b) == multiset(b[..i]) + multiset{b[i]} + multiset(b[i + 1..]);
      assert multiset(b') == multiset(b[..i]) + multiset(b[i + 1..]);
      assert a == [a[0]] + a[1..];
      assert multiset(a) == multiset{a[0]} + multiset(a[1..]);
      assert multiset(a[1..]) == multiset(a) - multiset{a[0]};
      assert multiset(b') == multiset(b) - multiset{b[i]};
      TotalPermutation(a[1..], b');
      TotalRemove(b, i);
    }
  }

  /**
   The order in which the sources' events are delivered within a frame does
   not matter: any reordering accumulates the same input.
   */
  lemma AccumulateOrderIndependent(f: FrameInput, a: seq<InputEvent>, b: seq<InputEvent>)
    requires multiset(a) == multiset(b)
    ensures Accumulate(f, a) == Accumulate(f, b)
  {
    AccumulateAddsTotal(f, a);
    AccumulateAddsTotal(f, b);
    TotalPermutation(a, b);
  }

  /** 1 when the condition holds, 0 otherwise: a two-entry lookup table. */
  function Indicator(c: bool): real {
    map[true := 1.0, false := 0.0][c]
  }

  /** What an optional single event adds. */
  lemma TotalEmitIf(c: bool, e: InputEvent)
    ensures Total(EmitIf(c, e)) == if c then Contribution(e) else NoInput
  {
    if c {
      var x := Contribution(e);
      assert EmitIf(c, e) == [e];
      assert [e][1..] == [];
      assert Total([e]) == Combine(x, NoInput);
      assert Combine(x, NoInput) == x;
    } else {
      assert EmitIf(c, e) == [];
    }
  }

  /** Forward against back: the net is the difference of the indicators along z. */
  lemma ForwardBackNet(all: seq<InputEvent>, c1: bool, c2: bool)
    requires all == EmitIf(c1, MoveForward) + EmitIf(c2, MoveBack)
    ensures Total(all) == FrameInput(Vec3(0.0, 0.0, Indicator(c1) - Indicator(c2)), 0.0, 0.0)
  {
    var u1, u2 := FrameInput(Vec3(0.0, 0.0, Indicator(c1)), 0.0, 0.0), FrameInput(Vec3(0.0, 0.0, -Indicator(c2)), 0.0, 0.0);
    assert Total(EmitIf(c1, MoveForward)) == u1 by { TotalEmitIf(c1, MoveForward); }
    assert Total(EmitIf(c2, MoveBack)) == u2 by { TotalEmitIf(c2, MoveBack); }
    TotalAppend(EmitIf(c1, MoveForward), EmitIf(c2, MoveBack));
  }

  /** Right against left: the net is the difference of the indicators along x. */
  lemma RightLeftNet(all: seq<InputEvent>, c1: bool, c2: bool)
    requires all == EmitIf(c1, MoveRight) + EmitIf(c2, MoveLeft)
    ensures Total(all) == FrameInput(Vec3(Indicator(c1) - Indicator(c2), 0.0, 0.0), 0.0, 0.0)
  {
    var u1, u2 := FrameInput(Vec3(Indicator(c1), 0.0, 0.0), 0.0, 0.0), FrameInput(Vec3(-Indicator(c2), 0.0, 0.0), 0.0, 0.0);
    assert Total(EmitIf(c1, MoveRight)) == u1 by { TotalEmitIf(c1, MoveRight); }
    assert Total(EmitIf(c2, MoveLeft)) == u2 by { TotalEmitIf(c2, MoveLeft); }
    TotalAppend(EmitIf(c1, MoveRight), EmitIf(c2, MoveLeft));
  }

  /** A turn of -1 against a turn of +1. */
  lemma TurnNet(all: seq<InputEvent>, c1: bool, c2: bool)
    requires all == EmitIf(c1, RotateInput(-1.0)) + EmitIf(c2, RotateInput(1.0))
    ensures Total(all) == FrameInput(Zero, Indicator(c2) - Indicator(c1), 0.0)
  {
    var u1, u2 := FrameInput(Zero, -Indicator(c1), 0.0), FrameInput(Zero, Indicator(c2), 0.0);
    assert Total(EmitIf(c1, RotateInput(-1.0))) == u1 by { TotalEmitIf(c1, RotateInput(-1.0)); }
    assert Total(EmitIf(c2, RotateInput(1.0))) == u2 by { TotalEmitIf(c2, RotateInput(1.0)); }
    TotalAppend(EmitIf(c1, RotateInput(-1.0)), EmitIf(c2, RotateInput(1.0)));
  }

  /** A zoom of `-step` against a zoom of `step`. */
  lemma ZoomNet(all: seq<InputEvent>, c1: bool, c2: bool, step: real)
    requires all == EmitIf(c1, ZoomInput(-step)) + EmitIf(c2, ZoomInput(step))
    ensures Total(all) == FrameInput(Zero, 0.0, step * (Indicator(c2) - Indicator(c1)))
  {
    var u1, u2 := FrameInput(Zero, 0.0, -step * Indicator(c1)), FrameInput(Zero, 0.0, step * Indicator(c2));
    assert Total(EmitIf(c1, ZoomInput(-step))) == u1 by { TotalEmitIf(c1, ZoomInput(-step)); }
    assert Total(EmitIf(c2, ZoomInput(step))) == u2 by { TotalEmitIf(c2, ZoomInput(step)); }
    TotalAppend(EmitIf(c1, ZoomInput(-step)), EmitIf(c2, ZoomInput(step)));
  }

  /** The net move of W/Up against S/Down. */
  lemma KeyboardVerticalNet(held: set<Keyboard.Key>)
    ensures Total(Keyboard.VerticalMoveEvents(held)) == FrameInput(
              Vec3(0.0, 0.0, Indicator(Keyboard.W in held || Keyboard.UpArrow in held)
                               - Indicator(Keyboard.S in held || Keyboard.DownArrow in held)),
              0.0, 0.0)
  {
    ForwardBackNet(Keyboard.VerticalMoveEvents(held),
                   Keyboard.W in held || Keyboard.UpArrow in held, Keyboard.S in held || Keyboard.DownArrow in held);
  }

  /** The net move of D/Right against A/Left. */
  lemma KeyboardHorizontalNet(held: set<Keyboard.Key>)
    ensures Total(Keyboard.HorizontalMoveEvents(held)) == FrameInput(
              Vec3(Indicator(Keyboard.D in held || Keyboard.RightArrow in held)
                     - Indicator(Keyboard.A in held || Keyboard.LeftArrow in held), 0.0, 0.0),
              0.0, 0.0)
  {
    RightLeftNet(Keyboard.HorizontalMoveEvents(held),
                 Keyboard.D in held || Keyboard.RightArrow in held, Keyboard.A in held || Keyboard.LeftArrow in held);
  }

  /** The net turn of Q against E. */
  lemma KeyboardRotateNet(held: set<Keyboard.Key>)
    ensures Total(Keyboard.RotateEvents(held)) ==
            FrameInput(Zero, Indicator(Keyboard.Q in held) - Indicator(Keyboard.E in held), 0.0)
  {
    TurnNet(Keyboard.RotateEvents(held), Keyboard.E in held, Keyboard.Q in held);
  }

  /** The net zoom of X against Z. */
  lemma KeyboardZoomNet(held: set<Keyboard.Key>)
    ensures Total(Keyboard.ZoomEvents(held)) ==
            FrameInput(Zero, 0.0, Indicator(Keyboard.X in held) - Indicator(Keyboard.Z in held))
  {
    ZoomNet(Keyboard.ZoomEvents(held), Keyboard.Z in held, Keyboard.X in held, 1.0);
  }

  /**
   The keyboard's net input for a frame: each held pair of opposite keys
   cancels out, a key and its arrow twin count once, and shift adds nothing.
   */
  lemma KeyboardNetInput(held: set<Keyboard.Key>)
    ensures Total(Keyboard.Update(held)) == FrameInput(
              Vec3(Indicator(Keyboard.D in held || Keyboard.RightArrow in held)
                     - Indicator(Keyboard.A in held || Keyboard.LeftArrow in held),
                   0.0,
                   Indicator(Keyboard.W in held || Keyboard.UpArrow in held)
                     - Indicator(Keyboard.S in held || Keyboard.DownArrow in held)),
              Indicator(Keyboard.Q in held) - Indicator(Keyboard.E in held),
              Indicator(Keyboard.X in held) - Indicator(Keyboard.Z in held))
  {
    UpdateSplits(held);
    KeyboardPartsNet(Keyboard.Update(held),
                     Keyboard.VerticalMoveEvents(held) + Keyboard.HorizontalMoveEvents(held),
                     Keyboard.RotateEvents(held), Keyboard.ZoomEvents(held), Keyboard.SpeedScaleEvents(held), held);
  }

  /** The keyboard's move: `[D or Right] - [A or Left]` along x, `[W or Up] - [S or Down]` along z. */
  function KeyboardMove(held: set<Keyboard.Key>): Vec3 {
    EdgeNet(Keyboard.W in held || Keyboard.UpArrow in held, Keyboard.S in held || Keyboard.DownArrow in held,
            Keyboard.D in held || Keyboard.RightArrow in held, Keyboard.A in held || Keyboard.LeftArrow in held)
  }

  /** The keyboard's turn: `[Q] - [E]`. */
  function KeyboardTurn(held: set<Keyboard.Key>): real {
    Indicator(Keyboard.Q in held) - Indicator(Keyboard.E in held)
  }

  /** The keyboard's zoom: `[X] - [Z]`. */
  function KeyboardZoom(held: set<Keyboard.Key>): real {
    Indicator(Keyboard.X in held) - Indicator(Keyboard.Z in held)
  }

  /** The keyboard's net input as a formula of the held keys. */
  function KeyboardNet(held: set<Keyboard.Key>): FrameInput {
    FrameInput(KeyboardMove(held), KeyboardTurn(held), KeyboardZoom(held))
  }

  /**
   The keyboard's four handlers, each written as its guarded publishes and
   laid end to end, add up to `KeyboardNet`.
   */
  lemma KeyboardPartsNet(all: seq<InputEvent>, mv: seq<InputEvent>, rot: seq<InputEvent>, zm: seq<InputEvent>, sp: seq<InputEvent>,
                         held: set<Keyboard.Key>)
    requires mv == (EmitIf(Keyboard.W in held || Keyboard.UpArrow in held, MoveForward)
                    + EmitIf(Keyboard.S in held || Keyboard.DownArrow in held, MoveBack))
                   + (EmitIf(Keyboard.D in held || Keyboard.RightArrow in held, MoveRight)
                      + EmitIf(Keyboard.A in held || Keyboard.LeftArrow in held, MoveLeft))
    requires rot == EmitIf(Keyboard.E in held, RotateInput(-1.0)) + EmitIf(Keyboard.Q in held, RotateInput(1.0))
    requires zm == EmitIf(Keyboard.Z in held, ZoomInput(-1.0)) + EmitIf(Keyboard.X in held, ZoomInput(1.0))
    requires sp == EmitIf(Keyboard.LeftShift in held, SpeedScale)
    requires all == mv + rot + zm + sp
    ensures Total(all) == KeyboardNet(held)
  {
    KeyboardMoveTotal(mv, held);
    KeyboardTurnTotal(rot, held);
    KeyboardZoomTotal(zm, held);
    TotalOfSources(mv + rot + zm, mv, rot, zm, KeyboardNet(held));
    TotalIgnoresPulse(mv + rot + zm, Keyboard.LeftShift in held);
  }

  /** The speed-scale pulse adds nothing: nothing subscribes to it. */
  lemma TotalIgnoresPulse(front: seq<InputEvent>, c: bool)
    ensures Total(front + EmitIf(c, SpeedScale)) == Total(front)
  {
    TotalAppend(front, EmitIf(c, SpeedScale));
    TotalEmitIf(c, SpeedScale);
  }

  /** The keyboard's four guarded moves add up to `KeyboardMove`. */
  lemma KeyboardMoveTotal(mv: seq<InputEvent>, held: set<Keyboard.Key>)
    requires mv == (EmitIf(Keyboard.W in held || Keyboard.UpArrow in held, MoveForward)
                    + EmitIf(Keyboard.S in held || Keyboard.DownArrow in held, MoveBack))
                   + (EmitIf(Keyboard.D in held || Keyboard.RightArrow in held, MoveRight)
                      + EmitIf(Keyboard.A in held || Keyboard.LeftArrow in held, MoveLeft))
    ensures Total(mv) == FrameInput(KeyboardMove(held), 0.0, 0.0)
  {
    EdgeMovesNet(mv, Keyboard.W in held || Keyboard.UpArrow in held, Keyboard.S in held || Keyboard.DownArrow in held,
                 Keyboard.D in held || Keyboard.RightArrow in held, Keyboard.A in held || Keyboard.LeftArrow in held);
  }

  /** The keyboard's guarded turns add up to `KeyboardTurn`. */
  lemma KeyboardTurnTotal(rot: seq<InputEvent>, held: set<Keyboard.Key>)
    requires rot == EmitIf(Keyboard.E in held, RotateInput(-1.0)) + EmitIf(Keyboard.Q in held, RotateInput(1.0))
    ensures Total(rot) == FrameInput(Zero, KeyboardTurn(held), 0.0)
  {
    TurnNet(rot, Keyboard.E in held, Keyboard.Q in held);
  }

  /** The keyboard's guarded zooms add up to `KeyboardZoom`. */
  lemma KeyboardZoomTotal(zm: seq<InputEvent>, held: set<Keyboard.Key>)
    requires zm == EmitIf(Keyboard.Z in held, ZoomInput(-1.0)) + EmitIf(Keyboard.X in held, ZoomInput(1.0))
    ensures Total(zm) == FrameInput(Zero, 0.0, KeyboardZoom(held))
  {
    ZoomNet(zm, Keyboard.Z in held, Keyboard.X in held, 1.0);
    assert 1.0 * (Indicator(Keyboard.X in held) - Indicator(Keyboard.Z in held)) == KeyboardZoom(held);
  }

  /** A keyboard frame is the five handlers' events, one after another. */
  lemma UpdateSplits(held: set<Keyboard.Key>)
    ensures Keyboard.Update(held) ==
            (Keyboard.VerticalMoveEvents(held) + Keyboard.HorizontalMoveEvents(held))
            + Keyboard.RotateEvents(held) + Keyboard.ZoomEvents(held) + Keyboard.SpeedScaleEvents(held)
  {
  }

  /** The nets of the keyboard's five handlers, each on its own. */
  lemma KeyboardHandlerNets(held: set<Keyboard.Key>)
    ensures Total(Keyboard.VerticalMoveEvents(held)) == FrameInput(
              Vec3(0.0, 0.0, Indicator(Keyboard.W in held || Keyboard.UpArrow in held)
                               - Indicator(Keyboard.S in held || Keyboard.DownArrow in held)),
              0.0, 0.0)
    ensures Total(Keyboard.HorizontalMoveEvents(held)) == FrameInput(
              Vec3(Indicator(Keyboard.D in held || Keyboard.RightArrow in held)
                     - Indicator(Keyboard.A in held || Keyboard.LeftArrow in held), 0.0, 0.0),
              0.0, 0.0)
    ensures Total(Keyboard.RotateEvents(held)) ==
            FrameInput(Zero, Indicator(Keyboard.Q in held) - Indicator(Keyboard.E in held), 0.0)
    ensures Total(Keyboard.ZoomEvents(held)) ==
            FrameInput(Zero, 0.0, Indicator(Keyboard.X in held) - Indicator(Keyboard.Z in held))
    ensures Total(Keyboard.SpeedScaleEvents(held)) == NoInput
  {
    KeyboardVerticalNet(held);
    KeyboardHorizontalNet(held);
    KeyboardRotateNet(held);
    KeyboardZoomNet(held);
    TotalEmitIf(Keyboard.LeftShift in held, SpeedScale);
  }

  /**
   Opposite keys held together cancel: W with S leaves no forward motion,
   D with A no sideways motion, Q with E no turn, Z with X no zoom.
   */
  lemma OppositeKeysCancel(held: set<Keyboard.Key>)
    ensures Keyboard.W in held && Keyboard.S in held ==> Total(Keyboard.Update(held)).move.z == 0.0
    ensures Keyboard.D in held && Keyboard.A in held ==> Total(Keyboard.Update(held)).move.x == 0.0
    ensures Keyboard.Q in held && Keyboard.E in held ==> Total(Keyboard.Update(held)).rotate == 0.0
    ensures Keyboard.Z in held && Keyboard.X in held ==> Total(Keyboard.Update(held)).zoom == 0.0
  {
    KeyboardNetInput(held);
  }

  // ---------------------------------------------------------------------
  // Net input of the mouse and the work field
  // ---------------------------------------------------------------------

  /**
   The move of guarded forward/back and right/left pairs: along each axis the
   indicator of one guard minus that of the other.
   */
  function EdgeNet(cf: bool, cb: bool, cr: bool, cl: bool): Vec3 {
    Vec3(Indicator(cr) - Indicator(cl), 0.0, Indicator(cf) - Indicator(cb))
  }

  /** Guarded forward/back and right/left pairs add up to `EdgeNet` of their guards. */
  lemma EdgeMovesNet(all: seq<InputEvent>, cf: bool, cb: bool, cr: bool, cl: bool)
    requires all == (EmitIf(cf, MoveForward) + EmitIf(cb, MoveBack)) + (EmitIf(cr, MoveRight) + EmitIf(cl, MoveLeft))
    ensures Total(all) == FrameInput(EdgeNet(cf, cb, cr, cl), 0.0, 0.0)
  {
    var vertical, horizontal := EmitIf(cf, MoveForward) + EmitIf(cb, MoveBack), EmitIf(cr, MoveRight) + EmitIf(cl, MoveLeft);
    ForwardBackNet(vertical, cf, cb);
    RightLeftNet(horizontal, cr, cl);
    CombineAxes(all, vertical, horizontal, Indicator(cf) - Indicator(cb), Indicator(cr) - Indicator(cl));
  }

  /** A forward/back total and a right/left total add up component by component. */
  lemma CombineAxes(all: seq<InputEvent>, vertical: seq<InputEvent>, horizontal: seq<InputEvent>, z: real, x: real)
    requires Total(vertical) == FrameInput(Vec3(0.0, 0.0, z), 0.0, 0.0)
    requires Total(horizontal) == FrameInput(Vec3(x, 0.0, 0.0), 0.0, 0.0)
    requires all == vertical + horizontal
    ensures Total(all) == FrameInput(Vec3(x, 0.0, z), 0.0, 0.0)
  {
    TotalAppend(vertical, horizontal);
  }

  /** Adding up the totals of a source's move, rotate and zoom handlers. */
  lemma TotalOfSources(all: seq<InputEvent>, mv: seq<InputEvent>, rot: seq<InputEvent>, zm: seq<InputEvent>, net: FrameInput)
    requires Total(mv) == FrameInput(net.move, 0.0, 0.0)
    requires Total(rot) == FrameInput(Zero, net.rotate, 0.0)
    requires Total(zm) == FrameInput(Zero, 0.0, net.zoom)
    requires all == mv + rot + zm
    ensures Total(all) == net
  {
    TotalAppend(mv, rot);
    TotalAppend(mv + rot, zm);
  }

  /** The mouse's edge move: the high band minus the low band, in the outer 5% of each side. */
  function MouseEdgeNet(p: Vec2, screen: Mouse.Screen): Vec3 {
    var w, h := screen.width as real, screen.height as real;
    EdgeNet(p.y > h * 0.95, p.y < h * 0.05, p.x > w * 0.95, p.x < w * 0.05)
  }

  /** The mouse's drag turn: +1 right of the recorded x and -1 left of it, after the press frame while held. */
  function MouseTurn(m: Mouse.MouseState, x: real, button: Mouse.RightButton): real {
    var drag := !button.pressedThisFrame && button.held;
    Indicator(drag && x > m.rotateStartX) - Indicator(drag && x < m.rotateStartX)
  }

  /** The scroll wheel's zoom: 3 against the scroll direction. */
  function ScrollZoom(scrollY: real): real {
    3.0 * (Indicator(scrollY < 0.0) - Indicator(scrollY > 0.0))
  }

  /** The mouse's net input as a formula of one frame's state. */
  function MouseNet(m: Mouse.MouseState, p: Vec2, screen: Mouse.Screen, button: Mouse.RightButton, scrollY: real): FrameInput {
    FrameInput(MouseEdgeNet(p, screen), MouseTurn(m, p.x, button), ScrollZoom(scrollY))
  }

  /** The mouse's edge moves add up to `MouseEdgeNet`. */
  lemma MouseMoveNet(p: Vec2, screen: Mouse.Screen)
    ensures Total(Mouse.MoveEvents(p, screen)) == FrameInput(MouseEdgeNet(p, screen), 0.0, 0.0)
  {
    var w, h := screen.width as real, screen.height as real;
    Mouse.MoveEventsSplit(p, screen);
    EdgeMovesNet(Mouse.MoveEvents(p, screen),
                 p.y > h * 0.95, p.y < h * 0.05, p.x > w * 0.95, p.x < w * 0.05);
  }

  /** The mouse's turn events add up to `MouseTurn`. */
  lemma MouseRotateNet(m: Mouse.MouseState, x: real, button: Mouse.RightButton)
    ensures Total(Mouse.RotateEvents(m, x, button).events) == FrameInput(Zero, MouseTurn(m, x, button), 0.0)
  {
    var drag := !button.pressedThisFrame && button.held;
    var left, right := drag && x < m.rotateStartX, drag && x > m.rotateStartX;
    assert Mouse.RotateEvents(m, x, button).events == EmitIf(left, RotateInput(-1.0)) + EmitIf(right, RotateInput(1.0)) by {
      if left {
        assert !right;
      } else if !right {
        assert Mouse.RotateEvents(m, x, button).events == [];
      }
    }
    TurnNet(Mouse.RotateEvents(m, x, button).events, left, right);
  }

  /** The scroll wheel's events add up to `ScrollZoom`. */
  lemma MouseZoomNet(scrollY: real)
    ensures Total(Mouse.ZoomEvents(scrollY)) == FrameInput(Zero, 0.0, ScrollZoom(scrollY))
  {
    ZoomNet(Mouse.ZoomEvents(scrollY), scrollY > 0.0, scrollY < 0.0, 3.0);
  }

  /**
   The mouse's net input for a frame: nothing for a pointer off the screen,
   otherwise `MouseNet`.
   */
  lemma MouseNetInput(m: Mouse.MouseState, p: Vec2, screen: Mouse.Screen, button: Mouse.RightButton, scrollY: real)
    ensures !Mouse.PointerValid(p, screen) ==> Total(Mouse.Update(m, p, screen, button, scrollY).events) == NoInput
    ensures Mouse.PointerValid(p, screen) ==>
            Total(Mouse.Update(m, p, screen, button, scrollY).events) == MouseNet(m, p, screen, button, scrollY)
  {
    if Mouse.PointerValid(p, screen) {
      MouseValidFrameNet(m, p, screen, button, scrollY);
    } else {
      NoEventsNoInput();
    }
  }

  /** The valid-pointer case of `MouseNetInput`: the three handlers' nets added up. */
  lemma MouseValidFrameNet(m: Mouse.MouseState, p: Vec2, screen: Mouse.Screen, button: Mouse.RightButton, scrollY: real)
    requires Mouse.PointerValid(p, screen)
    ensures Total(Mouse.Update(m, p, screen, button, scrollY).events) == MouseNet(m, p, screen, button, scrollY)
  {
    MouseMoveNet(p, screen);
    MouseRotateNet(m, p.x, button);
    MouseZoomNet(scrollY);
    TotalOfSources(Mouse.Update(m, p, screen, button, scrollY).events,
                   Mouse.MoveEvents(p, screen), Mouse.RotateEvents(m, p.x, button).events, Mouse.ZoomEvents(scrollY),
                   MouseNet(m, p, screen, button, scrollY));
  }

  /**
   A right-button drag over two frames: the press frame records the
   pointer's x and turns nothing; holding on the next frame turns by the
   sign of the pointer's travel since the press.
   */
  lemma MouseDragTurnsBySign(m: Mouse.MouseState, p0: Vec2, p: Vec2, screen: Mouse.Screen, scroll0: real, scroll: real)
    requires Mouse.PointerValid(p0, screen) && Mouse.PointerValid(p, screen)
    ensures var first := Mouse.Update(m, p0, screen, Mouse.RightButton(true, true), scroll0);
            var second := Mouse.Update(first.state, p, screen, Mouse.RightButton(false, true), scroll);
            && Total(first.events).rotate == 0.0
            && Total(second.events).rotate == Indicator(p.x > p0.x) - Indicator(p.x < p0.x)
  {
    var first := Mouse.Update(m, p0, screen, Mouse.RightButton(true, true), scroll0);
    assert first.state.rotateStartX == p0.x;
    MouseFrameTurn(m, p0, screen, Mouse.RightButton(true, true), scroll0);
    MouseFrameTurn(first.state, p, screen, Mouse.RightButton(false, true), scroll);
  }

  /** The turn a frame with the pointer on the screen adds: `MouseTurn`. */
  lemma MouseFrameTurn(m: Mouse.MouseState, p: Vec2, screen: Mouse.Screen, button: Mouse.RightButton, scrollY: real)
    requires Mouse.PointerValid(p, screen)
    ensures Total(Mouse.Update(m, p, screen, button, scrollY).events).rotate == MouseTurn(m, p.x, button)
  {
    MouseNetInput(m, p, screen, button, scrollY);
  }

  /**
   The work field's net input for a frame: nothing for a pointer outside it;
   otherwise forward minus back and right minus left, where the back and left
   guards hold only when the forward and right ones fail.
   */
  lemma UINetInput(p: Vec2, field: UI.WorkField)
    ensures !UI.PointerValid(p, field) ==> Total(UI.Update(p, field)) == NoInput
    ensures var top, right := p.y > field.topLeft.y - field.retreat, p.x > field.bottomRight.x - field.retreat;
            var bottom, left := p.y < field.bottomRight.y + field.retreat, p.x < field.topLeft.x + field.retreat;
            UI.PointerValid(p, field) ==>
            Total(UI.Update(p, field)) == FrameInput(EdgeNet(top, !top && bottom, right, !right && left), 0.0, 0.0)
  {
    if UI.PointerValid(p, field) {
      var top, right := p.y > field.topLeft.y - field.retreat, p.x > field.bottomRight.x - field.retreat;
      var bottom, left := p.y < field.bottomRight.y + field.retreat, p.x < field.topLeft.x + field.retreat;
      UI.MoveEventsSplit(p, field);
      EdgeMovesNet(UI.Update(p, field), top, !top && bottom, right, !right && left);
    } else {
      NoEventsNoInput();
    }
  }

  // ---------------------------------------------------------------------
  // LateUpdate
  // ---------------------------------------------------------------------

  /** The tuning fields of the rig that the pipeline reads. */
  datatype Settings = Settings(
    inOutSpeed: real,
    lateralSpeed: real,
    rotateSpeed: real,
    minBounds: Vec2,
    maxBounds: Vec2,
    zoomSpeed: real,
    nearZoomLimit: real,
    farZoomLimit: real)

  /** The serialized defaults; the bounds default to the zero vector. */
  const DefaultSettings: Settings :=
    Settings(5.0, 5.0, 5.0, Vec2(0.0, 0.0), Vec2(0.0, 0.0), 4.0, 2.0, 16.0)
  const DefaultStartingZoom: real := 5.0

  /** The bounds rectangle has its minimum corner below its maximum corner. */
  predicate BoundsOrdered(s: Settings) {
    s.minBounds.x <= s.maxBounds.x && s.minBounds.y <= s.maxBounds.y
  }

  /** The rig's x lies in the x-range of the bounds and its z in their y-range. */
  predicate InBounds(p: Vec3, s: Settings) {
    s.minBounds.x <= p.x <= s.maxBounds.x && s.minBounds.y <= p.z <= s.maxBounds.y
  }

  /** The rig: its world position, the yaw it has turned, and the zoom strategy with its camera. */
  datatype Rig = Rig(position: Vec3, yaw: real, view: Zoomed)

  /** The rig and accumulators after `LateUpdate`. */
  datatype Late = Late(rig: Rig, frame: FrameInput)

  /** The move accumulator scaled by the speed factors: x lateral, z in-out, y as is. */
  function SpeedModified(m: Vec3, s: Settings): (r: Vec3)
    ensures r.x == m.x * s.lateralSpeed
    ensures r.y == m.y
    ensures r.z == m.z * s.inOutSpeed
    ensures m == Zero ==> r == Zero
  {
    Vec3(m.x * s.lateralSpeed, m.y, m.z * s.inOutSpeed)
  }

  /**
   `LockPositionInBounds`: x and z are clamped to the bounds, y is left
   alone. A position already inside the bounds does not move.
   */
  function LockPositionInBounds(p: Vec3, s: Settings): (r: Vec3)
    ensures r.y == p.y
    ensures BoundsOrdered(s) ==> InBounds(r, s)
    ensures InBounds(p, s) ==> r == p
    ensures r.x == Clamp(p.x, s.minBounds.x, s.maxBounds.x)
    ensures r.z == Clamp(p.z, s.minBounds.y, s.maxBounds.y)
  {
    Vec3(Clamp(p.x, s.minBounds.x, s.maxBounds.x), p.y, Clamp(p.z, s.minBounds.y, s.maxBounds.y))
  }

  /** With ordered bounds, locking twice is locking once. */
  lemma LockPositionInBoundsIdempotent(p: Vec3, s: Settings)
    requires BoundsOrdered(s)
    ensures LockPositionInBounds(LockPositionInBounds(p, s), s) == LockPositionInBounds(p, s)
  {
    ClampIdempotent(p.x, s.minBounds.x, s.maxBounds.x);
    ClampIdempotent(p.z, s.minBounds.y, s.maxBounds.y);
  }

  /**
   With inverted bounds the lock is not idempotent: the clamp tests the
   minimum first, so the x coordinate flips between the two limits.
   */
  lemma LockInvertedBoundsNotIdempotent()
    ensures var s := DefaultSettings.(minBounds := Vec2(5.0, 0.0), maxBounds := Vec2(3.0, 0.0));
            var once := LockPositionInBounds(Vec3(4.0, 0.0, 0.0), s);
            && once.x == 5.0
            && LockPositionInBounds(once, s).x == 3.0
  {
  }

  /** The move stage: a non-zero move accumulator moves the rig along its current orientation, then locks it. */
  function MoveStage(rig: Rig, f: FrameInput, s: Settings, dt: real, toWorld: (real, Vec3) -> Vec3): (r: Vec3)
    ensures f.move == Zero ==> r == rig.position
    ensures f.move != Zero ==> r == LockPositionInBounds(Add(rig.position, Scale(toWorld(rig.yaw, SpeedModified(f.move, s)), dt)), s)
    ensures f.move != Zero ==> r.y == rig.position.y + toWorld(rig.yaw, SpeedModified(f.move, s)).y * dt
    ensures f.move != Zero && BoundsOrdered(s) ==> InBounds(r, s)
    ensures f.move != Zero && InBounds(Add(rig.position, Scale(toWorld(rig.yaw, SpeedModified(f.move, s)), dt)), s) ==>
              r == Add(rig.position, Scale(toWorld(rig.yaw, SpeedModified(f.move, s)), dt))
  {
    if f.move != Zero then
      LockPositionInBounds(Add(rig.position, Scale(toWorld(rig.yaw, SpeedModified(f.move, s)), dt)), s)
    else
      rig.position
  }

  /** The zoom stage: a negative accumulator zooms in, a positive one zooms out, zero does nothing. */
  function ZoomStage(view: Zoomed, f: FrameInput, s: Settings, dt: real): (r: Zoomed)
    ensures f.zoom == 0.0 ==> r == view
    ensures f.zoom < 0.0 ==> r == ZoomIn(view.behaviour, view.camera, dt * Abs(f.zoom) * s.zoomSpeed, s.nearZoomLimit)
    ensures f.zoom > 0.0 ==> r == ZoomOut(view.behaviour, view.camera, dt * f.zoom * s.zoomSpeed, s.farZoomLimit)
  {
    if f.zoom < 0.0 then ZoomIn(view.behaviour, view.camera, dt * Abs(f.zoom) * s.zoomSpeed, s.nearZoomLimit)
    else if f.zoom > 0.0 then ZoomOut(view.behaviour, view.camera, dt * f.zoom * s.zoomSpeed, s.farZoomLimit)
    else view
  }

  /**
   `LateUpdate`: each non-neutral accumulator is applied and reset. The
   move uses the orientation from before this frame's turn, because the
   turn is applied after it.
   */
  function LateUpdate(rig: Rig, f: FrameInput, s: Settings, dt: real, toWorld: (real, Vec3) -> Vec3): (r: Late)
    ensures r.frame == NoInput
    ensures r.rig.position == MoveStage(rig, f, s, dt, toWorld)
    ensures r.rig.yaw - rig.yaw == f.rotate * dt * s.rotateSpeed
    ensures r.rig.view == ZoomStage(rig.view, f, s, dt)
  {
    var afterMove := if f.move != Zero then f.(move := Zero) else f;
    var position := MoveStage(rig, f, s, dt, toWorld);
    var afterRotate := if f.rotate != 0.0 then afterMove.(rotate := 0.0) else afterMove;
    var yaw := if f.rotate != 0.0 then rig.yaw + f.rotate * dt * s.rotateSpeed else rig.yaw;
    var afterZoom := if f.zoom != 0.0 then afterRotate.(zoom := 0.0) else afterRotate;
    Late(Rig(position, yaw, ZoomStage(rig.view, f, s, dt)), afterZoom)
  }

  // ---------------------------------------------------------------------
  // Follow target
  // ---------------------------------------------------------------------

  /** `_currentTarget`: absent (null or destroyed) or a target standing at a position. */
  datatype Target = NoTarget | Target(position: Vec3)

  /**
   `Move`: without a target nothing happens; with one, the rig moves the
   fraction `dt` (clamped to [0, 1]) of the way toward it.
   */
  function Move(position: Vec3, target: Target, dt: real): (r: Vec3)
    ensures target.NoTarget? ==> r == position
    ensures target.Target? ==> r == Lerp(position, target.position, dt)
  {
    if target.Target? then Lerp(position, target.position, dt) else position
  }

  /**
   The loop test of `MoveToTarget`: a target exists and the rig is not on
   it. The engine's vector `!=` allows a tolerance of about 1e-5; the model
   compares exactly.
   */
  function FollowContinues(target: Target, position: Vec3): (r: bool)
    ensures r ==> target.Target?
    ensures target.Target? ==> (r <==> position != target.position)
  {
    target.Target? && position != target.position
  }

  /** The follow coroutine: the current target and whether the loop is still running. */
  datatype Follow = Follow(target: Target, running: bool)

  /** `SetTarget`: records the target and starts the loop when there is one. */
  function SetTarget(target: Target): (r: Follow)
    ensures r.target == target
    ensures r.running <==> target.Target?
  {
    Follow(target, target.Target?)
  }

  /** The follow task and the rig position after one frame of it. */
  datatype Followed = Followed(follow: Follow, position: Vec3)

  /**
   One frame of `MoveToTarget`: while the loop test holds the rig takes one
   `Move` step; once it fails the loop ends for good.
   */
  function FollowFrame(f: Follow, position: Vec3, dt: real): (r: Followed)
    ensures r.follow.target == f.target
    ensures r.follow.running <==> f.running && FollowContinues(f.target, position)
    ensures r.follow.running ==> r.position == Lerp(position, f.target.position, dt)
    ensures !r.follow.running ==> r.position == position
  {
    if f.running && FollowContinues(f.target, position) then Followed(f, Move(position, f.target, dt))
    else Followed(f.(running := false), position)
  }

  /** The follow task run over frames with the given frame times. */
  function FollowRun(f: Follow, position: Vec3, dts: seq<real>): Followed
    decreases |dts|
  {
    if dts == [] then Followed(f, position)
    else
      var next := FollowFrame(f, position, dts[0]);
      FollowRun(next.follow, next.position, dts[1..])
  }

  /** A lerp step shorter than the whole way never lands exactly on the target. */
  lemma LerpShortOfTarget(position: Vec3, target: Vec3, dt: real)
    requires dt < 1.0
    requires position != target
    ensures Lerp(position, target, dt) != target
  {
    var r := Lerp(position, target, dt);
    var k := 1.0 - Clamp01(dt);
    assert k > 0.0;
    if position.x != target.x {
      assert r.x - target.x == k * (position.x - target.x);
    } else if position.y != target.y {
      assert r.y - target.y == k * (position.y - target.y);
    } else {
      assert r.z - target.z == k * (position.z - target.z);
    }
  }

  /**
   Under the model's exact comparison, with every frame time below one
   second a rig that does not start on its target never reaches it and the
   loop never ends. The engine's tolerant `!=` and single-precision lerp
   are not modelled: there the loop ends only if rounding lands within the
   tolerance. This lemma is about the exact comparison only.
   */
  lemma {:induction false} FollowNeverArrives(f: Follow, position: Vec3, dts: seq<real>)
    requires f.running && FollowContinues(f.target, position)
    requires forall i :: 0 <= i < |dts| ==> dts[i] < 1.0
    ensures FollowRun(f, position, dts).follow.running
    ensures FollowRun(f, position, dts).position != f.target.position
    decreases |dts|
  {
    if dts != [] {
      var next := FollowFrame(f, position, dts[0]);
      LerpShortOfTarget(position, f.target.position, dts[0]);
      FollowNeverArrives(next.follow, next.position, dts[1..]);
    }
  }

  /** A frame time of at least one second lands on the target, and the next frame ends the loop. */
  lemma FollowArrivesWithFullStep(f: Follow, position: Vec3, dt: real, dt2: real)
    requires f.running && FollowContinues(f.target, position)
    requires dt >= 1.0
    ensures FollowFrame(f, position, dt).position == f.target.position
    ensures !FollowRun(f, position, [dt, dt2]).follow.running
  {
    var next := FollowFrame(f, position, dt);
    assert [dt, dt2][1..] == [dt2];
    assert FollowRun(f, position, [dt, dt2]) == FollowRun(next.follow, next.position, [dt2]);
    var last := FollowFrame(next.follow, next.position, dt2);
    assert !last.follow.running;
    assert [dt2][1..] == [];
    assert FollowRun(next.follow, next.position, [dt2]) == FollowRun(last.follow, last.position, []);
  }

  // ---------------------------------------------------------------------
  // One frame
  // ---------------------------------------------------------------------

  /** Everything the camera manager carries from one frame to the next. */
  datatype World = World(rig: Rig, frame: FrameInput, follow: Follow)

  /**
   One engine frame: the sources' events are delivered (`Update`), the
   follow coroutine resumes, then `LateUpdate` runs.
   */
  function Tick(w: World, events: seq<InputEvent>, s: Settings, dt: real, toWorld: (real, Vec3) -> Vec3): (r: World)
    ensures r.frame == NoInput
    ensures r.follow.target == w.follow.target
    ensures Combine(w.frame, Total(events)).move == Zero && !r.follow.running ==> r.rig.position == w.rig.position
    ensures r.follow == FollowFrame(w.follow, w.rig.position, dt).follow
    ensures r.rig.position == MoveStage(w.rig.(position := FollowFrame(w.follow, w.rig.position, dt).position),
                                        Combine(w.frame, Total(events)), s, dt, toWorld)
    ensures r.rig.yaw - w.rig.yaw == Combine(w.frame, Total(events)).rotate * dt * s.rotateSpeed
    ensures r.rig.view == ZoomStage(w.rig.view, Combine(w.frame, Total(events)), s, dt)
  {
    AccumulateAddsTotal(w.frame, events);
    var f := Accumulate(w.frame, events);
    assert f == Combine(w.frame, Total(events));
    var followed := FollowFrame(w.follow, w.rig.position, dt);
    var moved := w.rig.(position := followed.position);
    assert moved.yaw == w.rig.yaw && moved.view == w.rig.view;
    var late := LateUpdate(moved, f, s, dt, toWorld);
    World(late.rig, late.frame, followed.follow)
  }

  /** A frame's outcome depends on which events arrived, not on their order. */
  lemma TickOrderIndependent(w: World, a: seq<InputEvent>, b: seq<InputEvent>, s: Settings, dt: real, toWorld: (real, Vec3) -> Vec3)
    requires multiset(a) == multiset(b)
    ensures Tick(w, a, s, dt, toWorld) == Tick(w, b, s, dt, toWorld)
  {
    AccumulateOrderIndependent(w.frame, a, b);
  }

  /**
   Without a running follow task, a rig inside ordered bounds stays inside
   them after a frame, whatever the input.
   */
  lemma TickKeepsBounds(w: World, events: seq<InputEvent>, s: Settings, dt: real, toWorld: (real, Vec3) -> Vec3)
    requires BoundsOrdered(s)
    requires InBounds(w.rig.position, s)
    requires !w.follow.running
    ensures InBounds(Tick(w, events, s, dt, toWorld).rig.position, s)
  {
  }

  /**
   The follow step is not clamped, and `LateUpdate` clamps only when there
   is move input: a target outside the bounds pulls the rig out of them.
   */
  lemma FollowCanLeaveBounds(toWorld: (real, Vec3) -> Vec3)
    ensures var w := World(Rig(Zero, 0.0, Zoomed(Orthographic, Camera(5.0, Zero))), NoInput,
                           SetTarget(Target(Vec3(10.0, 0.0, 0.0))));
            && InBounds(w.rig.position, DefaultSettings)
            && Tick(w, [], DefaultSettings, 0.5, toWorld).rig.position.x == 5.0
            && !InBounds(Tick(w, [], DefaultSettings, 0.5, toWorld).rig.position, DefaultSettings)
  {
    var w := World(Rig(Zero, 0.0, Zoomed(Orthographic, Camera(5.0, Zero))), NoInput,
                   SetTarget(Target(Vec3(10.0, 0.0, 0.0))));
    TickWithoutInputOnlyFollows(w, DefaultSettings, 0.5, toWorld);
    assert FollowContinues(w.follow.target, Zero);
    var step := Lerp(Zero, Vec3(10.0, 0.0, 0.0), 0.5);
    assert step.x - 10.0 == 0.5 * (0.0 - 10.0);
  }

  /** With nothing accumulated and no events, a frame moves the rig only by the follow step. */
  lemma TickWithoutInputOnlyFollows(w: World, s: Settings, dt: real, toWorld: (real, Vec3) -> Vec3)
    requires w.frame == NoInput
    ensures Tick(w, [], s, dt, toWorld).rig.position == FollowFrame(w.follow, w.rig.position, dt).position
    ensures Tick(w, [], s, dt, toWorld).rig.view == w.rig.view
  {
    NoEventsNoInput();
    assert Combine(w.frame, Total([])) == NoInput;
  }

  /**
   With a perspective strategy inside [near, far], non-negative frame time
   and zoom speed, the zoom stage keeps the level inside the range and the
   camera at `direction * level`.
   */
  lemma ZoomStageKeepsPerspectiveRange(view: Zoomed, f: FrameInput, s: Settings, dt: real)
    requires view.behaviour.Perspective? && Positioned(view.behaviour, view.camera)
    requires InRange(view, s.nearZoomLimit, s.farZoomLimit)
    requires dt >= 0.0 && s.zoomSpeed >= 0.0
    ensures var v := ZoomStage(view, f, s, dt);
            && v.behaviour.Perspective?
            && Positioned(v.behaviour, v.camera)
            && InRange(v, s.nearZoomLimit, s.farZoomLimit)
  {
    if f.zoom < 0.0 {
      ZoomStageInKeepsRange(view, f, s, dt);
    } else if f.zoom > 0.0 {
      ZoomStageOutKeepsRange(view, f, s, dt);
    }
  }

  /** The zoom-in branch of `ZoomStageKeepsPerspectiveRange`. */
  lemma ZoomStageInKeepsRange(view: Zoomed, f: FrameInput, s: Settings, dt: real)
    requires view.behaviour.Perspective? && Positioned(view.behaviour, view.camera)
    requires InRange(view, s.nearZoomLimit, s.farZoomLimit)
    requires dt >= 0.0 && s.zoomSpeed >= 0.0 && f.zoom < 0.0
    ensures var v := ZoomStage(view, f, s, dt);
            && v.behaviour.Perspective?
            && Positioned(v.behaviour, v.camera)
            && InRange(v, s.nearZoomLimit, s.farZoomLimit)
  {
    NonNegativeProduct(dt, Abs(f.zoom), s.zoomSpeed);
    PerspectiveZoomInKeepsRange(view.behaviour, view.camera, dt * Abs(f.zoom) * s.zoomSpeed, s.nearZoomLimit, s.farZoomLimit);
  }

  /** The zoom-out branch of `ZoomStageKeepsPerspectiveRange`. */
  lemma ZoomStageOutKeepsRange(view: Zoomed, f: FrameInput, s: Settings, dt: real)
    requires view.behaviour.Perspective? && Positioned(view.behaviour, view.camera)
    requires InRange(view, s.nearZoomLimit, s.farZoomLimit)
    requires dt >= 0.0 && s.zoomSpeed >= 0.0 && f.zoom > 0.0
    ensures var v := ZoomStage(view, f, s, dt);
            && v.behaviour.Perspective?
            && Positioned(v.behaviour, v.camera)
            && InRange(v, s.nearZoomLimit, s.farZoomLimit)
  {
    NonNegativeProduct(dt, f.zoom, s.zoomSpeed);
    PerspectiveZoomOutKeepsRange(view.behaviour, view.camera, dt * f.zoom * s.zoomSpeed, s.nearZoomLimit, s.farZoomLimit);
  }

  /** A product of three non-negative numbers is non-negative. */
  lemma NonNegativeProduct(a: real, b: real, c: real)
    requires a >= 0.0 && b >= 0.0 && c >= 0.0
    ensures a * b * c >= 0.0
  {
    assert a * b >= 0.0;
  }

  /** A whole frame keeps a perspective strategy inside its range. */
  lemma TickKeepsPerspectiveRange(w: World, events: seq<InputEvent>, s: Settings, dt: real, toWorld: (real, Vec3) -> Vec3)
    requires w.rig.view.behaviour.Perspective? && Positioned(w.rig.view.behaviour, w.rig.view.camera)
    requires InRange(w.rig.view, s.nearZoomLimit, s.farZoomLimit)
    requires dt >= 0.0 && s.zoomSpeed >= 0.0
    ensures var v := Tick(w, events, s, dt, toWorld).rig.view;
            && v.behaviour.Perspective?
            && Positioned(v.behaviour, v.camera)
            && InRange(v, s.nearZoomLimit, s.farZoomLimit)
  {
    ZoomStageKeepsPerspectiveRange(w.rig.view, Combine(w.frame, Total(events)), s, dt);
  }

  /**
   The orthographic scenario with the default limits: from size 5, a zoom-in
   step of 10 lands on the near limit 2, and a second zoom-in changes nothing.
   */
  lemma DefaultOrthographicScenario()
    ensures var start := NewOrthographic(Camera(0.0, Zero), DefaultStartingZoom);
            var once := ZoomIn(start.behaviour, start.camera, 10.0, DefaultSettings.nearZoomLimit);
            && once.camera.orthographicSize == 2.0
            && ZoomIn(once.behaviour, once.camera, 10.0, DefaultSettings.nearZoomLimit) == once
  {
  }
}

=== FILE: input_events.dfy ===
/**
 The events every input source publishes to the camera rig
 (Assets/Scripts/CameraMovement/InputManager/InputManager.cs). A rotate
 event carries one yaw amount: the keyboard publishes it as the x part of a
 two-component vector and the mouse as a single number, and the rig adds it
 up as a single number, so the model uses one real for all three.
 */
module InputEvents {
  import opened Vectors

  datatype InputEvent =
    | MoveInput(moveVector: Vec3)
    | RotateInput(amount: real)
    | ZoomInput(amount: real)
    /** The keyboard's speed-scale pulse; the rig does not subscribe to it. */
    | SpeedScale

  /** The four screen-edge or key moves a source can publish. */
  const MoveForward: InputEvent := MoveInput(Forward)
  const MoveBack: InputEvent := MoveInput(Neg(Forward))
  const MoveRight: InputEvent := MoveInput(Right)
  const MoveLeft: InputEvent := MoveInput(Neg(Right))

  /** The four unit moves are distinct events. */
  lemma UnitMovesDistinct()
    ensures MoveForward != MoveBack && MoveForward != MoveRight && MoveForward != MoveLeft
    ensures MoveBack != MoveRight && MoveBack != MoveLeft && MoveRight != MoveLeft
  {
    assert MoveForward.moveVector.z == 1.0 && MoveBack.moveVector.z == -1.0;
    assert MoveRight.moveVector.x == 1.0 && MoveLeft.moveVector.x == -1.0;
  }

  /** A source's moves: only the four unit moves, none twice. */
  predicate UnitMovesOnce(r: seq<InputEvent>) {
    && (forall i :: 0 <= i < |r| ==> r[i] in {MoveForward, MoveBack, MoveRight, MoveLeft})
    && (forall i, j :: 0 <= i < j < |r| ==> r[i] != r[j])
  }

  /**
   At most one forward-or-back move followed by at most one right-or-left
   move holds only unit moves, none twice.
   */
  lemma AxisMovesOnce(vertical: seq<InputEvent>, horizontal: seq<InputEvent>)
    requires vertical == [] || vertical == [MoveForward] || vertical == [MoveBack]
    requires horizontal == [] || horizontal == [MoveRight] || horizontal == [MoveLeft]
    ensures UnitMovesOnce(vertical + horizontal)
  {
    UnitMovesDistinct();
  }

  /**
   Guarded forward, back, right and left moves, in that order, hold only
   unit moves, none twice.
   */
  lemma GuardedMovesOnce(cf: bool, cb: bool, cr: bool, cl: bool)
    ensures UnitMovesOnce((EmitIf(cf, MoveForward) + EmitIf(cb, MoveBack)) + (EmitIf(cr, MoveRight) + EmitIf(cl, MoveLeft)))
  {
    UnitMovesDistinct();
  }

  /** The one-event sequence `[e]` when `cond` holds, else nothing. */
  function EmitIf(cond: bool, e: InputEvent): (r: seq<InputEvent>)
    ensures e in r <==> cond
    ensures |r| <= 1
  {
    if cond then [e] else []
  }
}

=== FILE: keyboard.dfy ===
/**
 The keyboard input source
 (Assets/Scripts/CameraMovement/InputManager/KeyboardManager.cs): each
 frame it turns the set of held keys into move, rotate, zoom and
 speed-scale events, in that order. Each key test is independent of the
 others, so opposite keys held together publish both events.
 */
module Keyboard {
  import opened Vectors
  import opened InputEvents

  datatype Key =
    | W | A | S | D
    | UpArrow | DownArrow | LeftArrow | RightArrow
    | Q | E
    | Z | X
    | LeftShift

  /** The forward/back half of `MoveInputHandler`: W or Up, then S or Down. */
  function VerticalMoveEvents(held: set<Key>): (r: seq<InputEvent>)
    ensures forall i :: 0 <= i < |r| ==> r[i] == MoveForward || r[i] == MoveBack
    ensures MoveForward in r <==> W in held || UpArrow in held
    ensures MoveBack in r <==> S in held || DownArrow in held
  {
    EmitIf(W in held || UpArrow in held, MoveForward) + EmitIf(S in held || DownArrow in held, MoveBack)
  }

  /** The right/left half of `MoveInputHandler`: D or Right, then A or Left. */
  function HorizontalMoveEvents(held: set<Key>): (r: seq<InputEvent>)
    ensures forall i :: 0 <= i < |r| ==> r[i] == MoveRight || r[i] == MoveLeft
    ensures MoveRight in r <==> D in held || RightArrow in held
    ensures MoveLeft in r <==> A in held || LeftArrow in held
  {
    EmitIf(D in held || RightArrow in held, MoveRight) + EmitIf(A in held || LeftArrow in held, MoveLeft)
  }

  /**
   `MoveInputHandler`: W/Up forward, S/Down back, D/Right right, A/Left
   left, each test on its own; a key and its arrow twin held together still
   publish one event.
   */
  function MoveEvents(held: set<Key>): (r: seq<InputEvent>)
    ensures UnitMovesOnce(r)
    ensures MoveForward in r <==> W in held || UpArrow in held
    ensures MoveBack in r <==> S in held || DownArrow in held
    ensures MoveRight in r <==> D in held || RightArrow in held
    ensures MoveLeft in r <==> A in held || LeftArrow in held
    ensures |r| <= 4
  {
    var v := VerticalMoveEvents(held);
    var h := HorizontalMoveEvents(held);
    GuardedMovesOnce(W in held || UpArrow in held, S in held || DownArrow in held,
                     D in held || RightArrow in held, A in held || LeftArrow in held);
    v + h
  }

  /** A key and its arrow twin held together publish their move once. */
  lemma TwinKeysPublishOnce(held: set<Key>)
    ensures var r := MoveEvents(held);
            && multiset(r)[MoveForward] <= 1 && multiset(r)[MoveBack] <= 1
            && multiset(r)[MoveRight] <= 1 && multiset(r)[MoveLeft] <= 1
  {
    var v := VerticalMoveEvents(held);
    var h := HorizontalMoveEvents(held);
    assert multiset(v + h) == multiset(v) + multiset(h);
    assert multiset(v)[MoveRight] == 0 && multiset(v)[MoveLeft] == 0;
    assert multiset(h)[MoveForward] == 0 && multiset(h)[MoveBack] == 0;
  }

  /** `RotateInputHandler`: E turns by -1, Q by +1, each at most once. */
  function RotateEvents(held: set<Key>): (r: seq<InputEvent>)
    ensures RotateInput(-1.0) in r <==> E in held
    ensures RotateInput(1.0) in r <==> Q in held
    ensures forall i :: 0 <= i < |r| ==> r[i] == RotateInput(-1.0) || r[i] == RotateInput(1.0)
    ensures |r| <= 2
    ensures |r| == 2 ==> r[0] != r[1]
  {
    EmitIf(E in held, RotateInput(-1.0)) + EmitIf(Q in held, RotateInput(1.0))
  }

  /** `ZoomInputHandler`: Z zooms by -1 (in), X by +1 (out), each at most once. */
  function ZoomEvents(held: set<Key>): (r: seq<InputEvent>)
    ensures ZoomInput(-1.0) in r <==> Z in held
    ensures ZoomInput(1.0) in r <==> X in held
    ensures forall i :: 0 <= i < |r| ==> r[i] == ZoomInput(-1.0) || r[i] == ZoomInput(1.0)
    ensures |r| <= 2
    ensures |r| == 2 ==> r[0] != r[1]
  {
    EmitIf(Z in held, ZoomInput(-1.0)) + EmitIf(X in held, ZoomInput(1.0))
  }

  /** `SpeedScale`: the pulse fires exactly while left shift is held. */
  function SpeedScaleEvents(held: set<Key>): (r: seq<InputEvent>)
    ensures SpeedScale in r <==> LeftShift in held
    ensures r == [] || r == [SpeedScale]
  {
    EmitIf(LeftShift in held, SpeedScale)
  }

  /** `Update`: one frame of keyboard events. */
  function Update(held: set<Key>): (r: seq<InputEvent>)
    ensures SpeedScale in r <==> LeftShift in held
    ensures held == {} ==> r == []
  {
    MoveEvents(held) + RotateEvents(held) + ZoomEvents(held) + SpeedScaleEvents(held)
  }
}

=== FILE: mouse.dfy ===
/**
 The mouse input source
 (Assets/Scripts/CameraMovement/InputManager/MouseManager.cs). Each frame
 a pointer inside the screen publishes screen-edge moves, a right-drag
 rotation and a scroll zoom; a pointer outside the screen publishes nothing.
 The screen size, pointer position, button and scroll state are read from
 the engine and are parameters here.
 */
module Mouse {
  import opened Vectors
  import opened InputEvents

  /** The screen size in pixels, as the integer pair the source caches. */
  datatype Screen = Screen(width: nat, height: nat)

  /** The right button: pressed this frame, and held down. */
  datatype RightButton = RightButton(pressedThisFrame: bool, held: bool)

  /** The one piece of state the mouse source keeps between frames. */
  datatype MouseState = MouseState(rotateStartX: real)

  /** Events of one frame and the state left for the next. */
  datatype MouseFrame = MouseFrame(state: MouseState, events: seq<InputEvent>)

  /**
   The pointer-validity test of `Update`, written with the source's factors
   1 and -0: the pointer is inside [0, W] x [0, H], borders included.
   */
  function PointerValid(p: Vec2, screen: Screen): (r: bool)
    ensures r <==> 0.0 <= p.x <= screen.width as real && 0.0 <= p.y <= screen.height as real
  {
    && p.y <= (screen.height as real) * 1.0
    && p.y >= (screen.height as real) * -0.0
    && p.x <= (screen.width as real) * 1.0
    && p.x >= (screen.width as real) * -0.0
  }

  /** The pointer is in neither edge band (the outer 5% of each side) on either axis. */
  predicate InCentralBand(p: Vec2, screen: Screen) {
    && (screen.height as real) * 0.05 <= p.y <= (screen.height as real) * 0.95
    && (screen.width as real) * 0.05 <= p.x <= (screen.width as real) * 0.95
  }

  /**
   `MoveInputHandler`: the top band publishes forward, otherwise the bottom
   band publishes back; independently, the right band publishes right,
   otherwise the left band publishes left.
   */
  function MoveEvents(p: Vec2, screen: Screen): (r: seq<InputEvent>)
    ensures UnitMovesOnce(r)
    ensures MoveForward in r <==> p.y > (screen.height as real) * 0.95
    ensures MoveBack in r <==> p.y < (screen.height as real) * 0.05
    ensures MoveRight in r <==> p.x > (screen.width as real) * 0.95
    ensures MoveLeft in r <==> p.x < (screen.width as real) * 0.05
    ensures !(MoveForward in r && MoveBack in r)
    ensures !(MoveRight in r && MoveLeft in r)
    ensures |r| <= 2
    ensures InCentralBand(p, screen) ==> r == []
  {
    var h := screen.height as real;
    var w := screen.width as real;
    var vertical :=
      if p.y > h * 0.95 then [MoveForward]
      else if p.y < h * 0.05 then [MoveBack]
      else [];
    var horizontal :=
      if p.x > w * 0.95 then [MoveRight]
      else if p.x < w * 0.05 then [MoveLeft]
      else [];
    AxisMovesOnce(vertical, horizontal);
    vertical + horizontal
  }

  /**
   The edge bands of an axis never overlap, so each axis's `if`/`else if`
   is the same as two independent guarded publishes.
   */
  lemma MoveEventsSplit(p: Vec2, screen: Screen)
    ensures MoveEvents(p, screen) ==
            (EmitIf(p.y > (screen.height as real) * 0.95, MoveForward)
             + EmitIf(p.y < (screen.height as real) * 0.05, MoveBack))
            + (EmitIf(p.x > (screen.width as real) * 0.95, MoveRight)
               + EmitIf(p.x < (screen.width as real) * 0.05, MoveLeft))
  {
  }

  /**
   `RotateInputHandler`: on the frame the right button goes down the
   pointer's x is recorded and nothing is published; while it stays held,
   a pointer left of the recorded x turns by -1, right of it by +1, and
   exactly on it publishes nothing.
   */
  function RotateEvents(m: MouseState, x: real, button: RightButton): (r: MouseFrame)
    ensures button.pressedThisFrame ==> r.state.rotateStartX == x && r.events == []
    ensures !button.pressedThisFrame ==> r.state == m
    ensures !button.pressedThisFrame && button.held && x < m.rotateStartX ==> r.events == [RotateInput(-1.0)]
    ensures !button.pressedThisFrame && button.held && x > m.rotateStartX ==> r.events == [RotateInput(1.0)]
    ensures x == m.rotateStartX || !button.held ==> r.events == []
  {
    if button.pressedThisFrame then MouseFrame(MouseState(x), [])
    else if button.held then
      if x < m.rotateStartX then MouseFrame(m, [RotateInput(-1.0)])
      else if x > m.rotateStartX then MouseFrame(m, [RotateInput(1.0)])
      else MouseFrame(m, [])
    else MouseFrame(m, [])
  }

  /** `ZoomInputHandler`: scrolling up zooms in by 3, down zooms out by 3. */
  function ZoomEvents(scrollY: real): (r: seq<InputEvent>)
    ensures scrollY > 0.0 <==> r == [ZoomInput(-3.0)]
    ensures scrollY < 0.0 <==> r == [ZoomInput(3.0)]
    ensures scrollY == 0.0 <==> r == []
  {
    if scrollY > 0.0 then [ZoomInput(-3.0)]
    else if scrollY < 0.0 then [ZoomInput(3.0)]
    else []
  }

  /**
   `Update`: an invalid pointer publishes nothing and leaves the recorded
   rotation start alone; a valid one publishes the move, rotate and zoom
   events, in that order.
   */
  function Update(m: MouseState, p: Vec2, screen: Screen, button: RightButton, scrollY: real): (r: MouseFrame)
    ensures !PointerValid(p, screen) ==> r == MouseFrame(m, [])
    ensures PointerValid(p, screen) ==>
              && r.state == RotateEvents(m, p.x, button).state
              && multiset(r.events) == multiset(MoveEvents(p, screen))
                                       + multiset(RotateEvents(m, p.x, button).events)
                                       + multiset(ZoomEvents(scrollY))
  {
    if !PointerValid(p, screen) then MouseFrame(m, [])
    else
      var rotated := RotateEvents(m, p.x, button);
      MouseFrame(rotated.state, MoveEvents(p, screen) + rotated.events + ZoomEvents(scrollY))
  }
}

=== FILE: ui.dfy ===
/**
 The on-screen work-field input source
 (Assets/Scripts/CameraMovement/InputManager/UIManager.cs). The field is a
 screen rectangle given by two of its world corners, the top-left
 (`corners[1]`) and the bottom-right (`corners[3]`); a pointer inside it
 that is within `retreat` of an edge publishes a move toward that edge.
 The source declares rotate and zoom events but never publishes them.
 */
module UI {
  import opened Vectors
  import opened InputEvents

  /** The work field: corners 1 and 3 of the rectangle and the edge width. */
  datatype WorkField = WorkField(topLeft: Vec2, bottomRight: Vec2, retreat: real)

  /**
   The pointer-validity test of `Update`, borders included: the pointer is
   inside the rectangle spanned by the two corners, which is therefore not
   empty.
   */
  function PointerValid(p: Vec2, field: WorkField): (r: bool)
    ensures r <==> field.topLeft.x <= p.x <= field.bottomRight.x && field.bottomRight.y <= p.y <= field.topLeft.y
    ensures r ==> field.topLeft.x <= field.bottomRight.x && field.bottomRight.y <= field.topLeft.y
  {
    && p.y <= field.topLeft.y
    && p.y >= field.bottomRight.y
    && p.x <= field.bottomRight.x
    && p.x >= field.topLeft.x
  }

  /**
   `MoveInputHandler`: near the top edge publishes forward, otherwise near
   the bottom edge publishes back; independently, near the right edge
   publishes right, otherwise near the left edge publishes left. In a field
   narrower than two edge widths both tests of an axis can hold, and the
   forward and right tests win.
   */
  function MoveEvents(p: Vec2, field: WorkField): (r: seq<InputEvent>)
    ensures UnitMovesOnce(r)
    ensures MoveForward in r <==> p.y > field.topLeft.y - field.retreat
    ensures MoveBack in r <==> !(p.y > field.topLeft.y - field.retreat) && p.y < field.bottomRight.y + field.retreat
    ensures MoveRight in r <==> p.x > field.bottomRight.x - field.retreat
    ensures MoveLeft in r <==> !(p.x > field.bottomRight.x - field.retreat) && p.x < field.topLeft.x + field.retreat
    ensures !(MoveForward in r && MoveBack in r)
    ensures !(MoveRight in r && MoveLeft in r)
    ensures |r| <= 2
  {
    var vertical :=
      if p.y > field.topLeft.y - field.retreat then [MoveForward]
      else if p.y < field.bottomRight.y + field.retreat then [MoveBack]
      else [];
    var horizontal :=
      if p.x > field.bottomRight.x - field.retreat then [MoveRight]
      else if p.x < field.topLeft.x + field.retreat then [MoveLeft]
      else [];
    AxisMovesOnce(vertical, horizontal);
    vertical + horizontal
  }

  /**
   `Update`: a pointer outside the field publishes nothing; inside it, the
   edge moves of `MoveEvents`. Rotations and zooms are never published.
   */
  function Update(p: Vec2, field: WorkField): (r: seq<InputEvent>)
    ensures !PointerValid(p, field) ==> r == []
    ensures forall i :: 0 <= i < |r| ==> r[i].MoveInput?
    ensures PointerValid(p, field) ==> r == MoveEvents(p, field)
  {
    if !PointerValid(p, field) then [] else MoveEvents(p, field)
  }

  /**
   The `else` of each axis becomes an explicit guard: the back move needs the
   forward test to fail, and the left move the right test.
   */
  lemma MoveEventsSplit(p: Vec2, field: WorkField)
    ensures MoveEvents(p, field) ==
            (EmitIf(p.y > field.topLeft.y - field.retreat, MoveForward)
             + EmitIf(!(p.y > field.topLeft.y - field.retreat) && p.y < field.bottomRight.y + field.retreat, MoveBack))
            + (EmitIf(p.x > field.bottomRight.x - field.retreat, MoveRight)
               + EmitIf(!(p.x > field.bottomRight.x - field.retreat) && p.x < field.topLeft.x + field.retreat, MoveLeft))
  {
  }
}

=== FILE: vectors.dfy ===
/**
 Real-valued vectors and the scalar helpers of the engine's maths library
 (`Mathf.Abs`, `Mathf.Max`, `Mathf.Min`, `Mathf.Clamp`, `Mathf.Clamp01`,
 `Vector3.Lerp`). Every float of the camera rig is modelled as a `real`;
 rounding is not modelled.
 */
module Vectors {

  datatype Vec3 = Vec3(x: real, y: real, z: real)

  datatype Vec2 = Vec2(x: real, y: real)

  /** `Vector3.zero`, `Vector3.forward` and `Vector3.right`. */
  const Zero: Vec3 := Vec3(0.0, 0.0, 0.0)
  const Forward: Vec3 := Vec3(0.0, 0.0, 1.0)
  const Right: Vec3 := Vec3(1.0, 0.0, 0.0)

  function Neg(v: Vec3): Vec3 {
    Vec3(-v.x, -v.y, -v.z)
  }

  function Add(a: Vec3, b: Vec3): Vec3 {
    Vec3(a.x + b.x, a.y + b.y, a.z + b.z)
  }

  function Scale(v: Vec3, k: real): Vec3 {
    Vec3(v.x * k, v.y * k, v.z * k)
  }

  /** `Mathf.Abs`. */
  function Abs(a: real): (r: real)
    ensures r >= 0.0
    ensures r == a || r == -a
  {
    if a < 0.0 then -a else a
  }

  /** `Mathf.Max`: the larger argument. */
  function Max(a: real, b: real): (r: real)
    ensures r >= a && r >= b
    ensures r == a || r == b
  {
    if a > b then a else b
  }

  /** `Mathf.Min`: the smaller argument. */
  function Min(a: real, b: real): (r: real)
    ensures r <= a && r <= b
    ensures r == a || r == b
  {
    if a < b then a else b
  }

  /**
   `Mathf.Clamp`: the lower limit is tested first, so when `lo > hi` the
   result is not inside any interval and the operation is not idempotent
   (see `ClampInvertedNotIdempotent`).
   */
  function Clamp(v: real, lo: real, hi: real): (r: real)
    ensures lo <= hi ==> lo <= r <= hi
    ensures v < lo ==> r == lo
    ensures !(v < lo) && v > hi ==> r == hi
    ensures lo <= v <= hi ==> r == v
    ensures r == v || r == lo || r == hi
  {
    if v < lo then lo else if v > hi then hi else v
  }

  /** With well-ordered limits, clamping twice is clamping once. */
  lemma ClampIdempotent(v: real, lo: real, hi: real)
    requires lo <= hi
    ensures Clamp(Clamp(v, lo, hi), lo, hi) == Clamp(v, lo, hi)
  {
  }

  /** With inverted limits the clamp flips between them. */
  lemma ClampInvertedNotIdempotent()
    ensures Clamp(4.0, 5.0, 3.0) == 5.0
    ensures Clamp(Clamp(4.0, 5.0, 3.0), 5.0, 3.0) == 3.0
  {
  }

  /** `Mathf.Clamp01`. */
  function Clamp01(t: real): (r: real)
    ensures 0.0 <= r <= 1.0
    ensures 0.0 <= t <= 1.0 ==> r == t
    ensures t < 0.0 ==> r == 0.0
    ensures t > 1.0 ==> r == 1.0
  {
    Clamp(t, 0.0, 1.0)
  }

  /**
   `Vector3.Lerp(a, b, t)`: the interpolation parameter is clamped to
   [0, 1], so the result lies on the segment from `a` to `b`, and its
   offset from `b` is the offset of `a` shrunk by the factor `1 - t`.
   */
  function Lerp(a: Vec3, b: Vec3, t: real): (r: Vec3)
    ensures r.x - b.x == (1.0 - Clamp01(t)) * (a.x - b.x)
    ensures r.y - b.y == (1.0 - Clamp01(t)) * (a.y - b.y)
    ensures r.z - b.z == (1.0 - Clamp01(t)) * (a.z - b.z)
    ensures t <= 0.0 ==> r == a
    ensures t >= 1.0 ==> r == b
  {
    var c := Clamp01(t);
    Vec3(a.x + (b.x - a.x) * c, a.y + (b.y - a.y) * c, a.z + (b.z - a.z) * c)
  }
}

=== FILE: zoom.dfy ===
/**
 The two zoom strategies behind the zoom interface
 (Assets/Scripts/CameraMovement/ZoomManager). The orthographic strategy
 changes only the camera's orthographic size; the perspective strategy keeps
 its own zoom level and places the camera at `direction * level` along a
 unit direction fixed at construction.
 */
module Zoom {
  import opened Vectors

  /** The parts of the engine camera that the strategies read or write. */
  datatype Camera = Camera(orthographicSize: real, localPosition: Vec3)

  /** The zoom strategy and the state it owns. */
  datatype ZoomBehaviour =
    | Orthographic
    | Perspective(direction: Vec3, level: real)

  /** The strategy and camera after a zoom call. */
  datatype Zoomed = Zoomed(behaviour: ZoomBehaviour, camera: Camera)

  /** A perspective camera sits at `direction * level`. */
  predicate Positioned(b: ZoomBehaviour, cam: Camera)
    requires b.Perspective?
  {
    cam.localPosition == Scale(b.direction, b.level)
  }

  /** The orthographic constructor: the size starts at `startingZoom`. */
  function NewOrthographic(cam: Camera, startingZoom: real): (r: Zoomed)
    ensures r.behaviour.Orthographic?
    ensures r.camera.orthographicSize == startingZoom
    ensures r.camera.localPosition == cam.localPosition
  {
    Zoomed(Orthographic, cam.(orthographicSize := startingZoom))
  }

  /**
   The perspective constructor. The direction is the normalisation of
   `(0, |offset.y|, -|offset.x|)`; `normalize` stands for the engine's
   `Vector3.normalized`, whose square root is not modelled.
   */
  function NewPerspective(cam: Camera, offset: Vec2, startingZoom: real, normalize: Vec3 -> Vec3): (r: Zoomed)
    ensures r.behaviour.Perspective?
    ensures r.behaviour.direction == normalize(Vec3(0.0, Abs(offset.y), -Abs(offset.x)))
    ensures r.behaviour.level == startingZoom
    ensures Positioned(r.behaviour, r.camera)
    ensures r.camera.orthographicSize == cam.orthographicSize
  {
    var b := Perspective(normalize(Vec3(0.0, Abs(offset.y), -Abs(offset.x))), startingZoom);
    Zoomed(b, PositionCamera(b, cam))
  }

  /** `PositonCamera`: move the camera to `direction * level`. */
  function PositionCamera(b: ZoomBehaviour, cam: Camera): (r: Camera)
    requires b.Perspective?
    ensures Positioned(b, r)
    ensures r.orthographicSize == cam.orthographicSize
  {
    cam.(localPosition := Scale(b.direction, b.level))
  }

  /**
   The orthographic `ZoomIn`: a size exactly equal to the near limit is left
   alone; otherwise the size drops by `delta` but not below the near limit.
   Only the size changes.
   */
  function OrthographicZoomIn(cam: Camera, delta: real, nearZoomLimit: real): (r: Camera)
    ensures r.localPosition == cam.localPosition
    ensures cam.orthographicSize == nearZoomLimit ==> r == cam
    ensures r.orthographicSize >= nearZoomLimit
    ensures cam.orthographicSize != nearZoomLimit ==>
              (r.orthographicSize == nearZoomLimit || r.orthographicSize == cam.orthographicSize - delta)
    ensures cam.orthographicSize != nearZoomLimit && cam.orthographicSize - delta > nearZoomLimit ==>
              r.orthographicSize == cam.orthographicSize - delta
  {
    if cam.orthographicSize == nearZoomLimit then cam
    else cam.(orthographicSize := Max(cam.orthographicSize - delta, nearZoomLimit))
  }

  /**
   The orthographic `ZoomOut`: a size exactly equal to the far limit is left
   alone; otherwise the size becomes the LARGER of `size + delta` and the
   far limit, as the source writes it: a size below the far limit jumps up
   to it when `delta` is small, and otherwise grows past it. Only the size
   changes.
   */
  function OrthographicZoomOut(cam: Camera, delta: real, farZoomLimit: real): (r: Camera)
    ensures r.localPosition == cam.localPosition
    ensures cam.orthographicSize == farZoomLimit ==> r == cam
    ensures r.orthographicSize >= farZoomLimit
    ensures cam.orthographicSize != farZoomLimit && cam.orthographicSize + delta <= farZoomLimit ==>
              r.orthographicSize == farZoomLimit
    ensures cam.orthographicSize != farZoomLimit && cam.orthographicSize + delta > farZoomLimit ==>
              r.orthographicSize == cam.orthographicSize + delta
  {
    if cam.orthographicSize == farZoomLimit then cam
    else cam.(orthographicSize := Max(cam.orthographicSize + delta, farZoomLimit))
  }

  /**
   The perspective `ZoomIn`: a level at or below the near limit is left
   alone, camera included; otherwise the level drops by `delta` but not
   below the near limit, and the camera is repositioned. The direction and
   the orthographic size never change.
   */
  function PerspectiveZoomIn(b: ZoomBehaviour, cam: Camera, delta: real, nearZoomLimit: real): (r: Zoomed)
    requires b.Perspective?
    ensures r.behaviour.Perspective? && r.behaviour.direction == b.direction
    ensures r.camera.orthographicSize == cam.orthographicSize
    ensures b.level <= nearZoomLimit ==> r == Zoomed(b, cam)
    ensures b.level > nearZoomLimit ==>
              && r.behaviour.level >= nearZoomLimit
              && (r.behaviour.level == nearZoomLimit || r.behaviour.level == b.level - delta)
              && (b.level - delta > nearZoomLimit ==> r.behaviour.level == b.level - delta)
              && Positioned(r.behaviour, r.camera)
  {
    if b.level <= nearZoomLimit then Zoomed(b, cam)
    else
      var b' := b.(level := Max(b.level - delta, nearZoomLimit));
      Zoomed(b', PositionCamera(b', cam))
  }

  /**
   The perspective `ZoomOut`: a level at or above the far limit is left
   alone, camera included; otherwise the level rises by `delta` but not
   above the far limit, and the camera is repositioned. The direction and
   the orthographic size never change.
   */
  function PerspectiveZoomOut(b: ZoomBehaviour, cam: Camera, delta: real, farZoomLimit: real): (r: Zoomed)
    requires b.Perspective?
    ensures r.behaviour.Perspective? && r.behaviour.direction == b.direction
    ensures r.camera.orthographicSize == cam.orthographicSize
    ensures b.level >= farZoomLimit ==> r == Zoomed(b, cam)
    ensures b.level < farZoomLimit ==>
              && r.behaviour.level <= farZoomLimit
              && (r.behaviour.level == farZoomLimit || r.behaviour.level == b.level + delta)
              && (b.level + delta < farZoomLimit ==> r.behaviour.level == b.level + delta)
              && Positioned(r.behaviour, r.camera)
  {
    if b.level >= farZoomLimit then Zoomed(b, cam)
    else
      var b' := b.(level := Min(b.level + delta, farZoomLimit));
      Zoomed(b', PositionCamera(b', cam))
  }

  /** `IZoomBehaviour.ZoomIn`, dispatched to the strategy; the strategy kind never changes. */
  function ZoomIn(b: ZoomBehaviour, cam: Camera, delta: real, nearZoomLimit: real): (r: Zoomed)
    ensures r.behaviour.Orthographic? == b.Orthographic?
  {
    match b
    case Orthographic => Zoomed(b, OrthographicZoomIn(cam, delta, nearZoomLimit))
    case Perspective(_, _) => PerspectiveZoomIn(b, cam, delta, nearZoomLimit)
  }

  /** `IZoomBehaviour.ZoomOut`, dispatched to the strategy; the strategy kind never changes. */
  function ZoomOut(b: ZoomBehaviour, cam: Camera, delta: real, farZoomLimit: real): (r: Zoomed)
    ensures r.behaviour.Orthographic? == b.Orthographic?
  {
    match b
    case Orthographic => Zoomed(b, OrthographicZoomOut(cam, delta, farZoomLimit))
    case Perspective(_, _) => PerspectiveZoomOut(b, cam, delta, farZoomLimit)
  }

  /** The zoom value a strategy exposes: the size or the level. */
  function Value(z: Zoomed): real {
    match z.behaviour
    case Orthographic => z.camera.orthographicSize
    case Perspective(_, level) => level
  }

  /** Once `ZoomIn` has reached the near limit, a further `ZoomIn` changes nothing. */
  lemma ZoomInIdempotentAtLimit(b: ZoomBehaviour, cam: Camera, d1: real, d2: real, nearZoomLimit: real)
    requires Value(ZoomIn(b, cam, d1, nearZoomLimit)) == nearZoomLimit
    ensures var z := ZoomIn(b, cam, d1, nearZoomLimit);
            ZoomIn(z.behaviour, z.camera, d2, nearZoomLimit) == z
  {
  }

  /** Once `ZoomOut` has reached the far limit, a further `ZoomOut` changes nothing. */
  lemma ZoomOutIdempotentAtLimit(b: ZoomBehaviour, cam: Camera, d1: real, d2: real, farZoomLimit: real)
    requires Value(ZoomOut(b, cam, d1, farZoomLimit)) == farZoomLimit
    ensures var z := ZoomOut(b, cam, d1, farZoomLimit);
            ZoomOut(z.behaviour, z.camera, d2, farZoomLimit) == z
  {
  }

  /** The zoom range a perspective strategy is meant to keep. */
  predicate InRange(z: Zoomed, nearZoomLimit: real, farZoomLimit: real) {
    nearZoomLimit <= Value(z) <= farZoomLimit
  }

  /**
   The perspective `ZoomIn` keeps the level inside [near, far] and the
   camera at `direction * level` under any non-negative step, and lowers the
   level by at most the step.
   */
  lemma PerspectiveZoomInKeepsRange(b: ZoomBehaviour, cam: Camera, delta: real, nearZoomLimit: real, farZoomLimit: real)
    requires b.Perspective? && Positioned(b, cam)
    requires delta >= 0.0
    requires InRange(Zoomed(b, cam), nearZoomLimit, farZoomLimit)
    ensures var i := ZoomIn(b, cam, delta, nearZoomLimit);
            && InRange(i, nearZoomLimit, farZoomLimit) && i.behaviour.Perspective? && Positioned(i.behaviour, i.camera)
            && b.level - delta <= Value(i) <= b.level
  {
  }

  /**
   The perspective `ZoomOut` keeps the level inside [near, far] and the
   camera at `direction * level` under any non-negative step, and raises the
   level by at most the step.
   */
  lemma PerspectiveZoomOutKeepsRange(b: ZoomBehaviour, cam: Camera, delta: real, nearZoomLimit: real, farZoomLimit: real)
    requires b.Perspective? && Positioned(b, cam)
    requires delta >= 0.0
    requires InRange(Zoomed(b, cam), nearZoomLimit, farZoomLimit)
    ensures var o := ZoomOut(b, cam, delta, farZoomLimit);
            && InRange(o, nearZoomLimit, farZoomLimit) && o.behaviour.Perspective? && Positioned(o.behaviour, o.camera)
            && b.level <= Value(o) <= b.level + delta
  {
  }

  /**
   The orthographic strategy keeps the lower half of the range: once the
   size is at least the near limit (and near <= far), no zoom call takes it
   below the near limit.
   */
  lemma OrthographicKeepsNearBound(cam: Camera, delta: real, nearZoomLimit: real, farZoomLimit: real)
    requires nearZoomLimit <= farZoomLimit
    requires cam.orthographicSize >= nearZoomLimit
    ensures ZoomIn(Orthographic, cam, delta, nearZoomLimit).camera.orthographicSize >= nearZoomLimit
    ensures ZoomOut(Orthographic, cam, delta, farZoomLimit).camera.orthographicSize >= nearZoomLimit
  {
  }

  /**
   The orthographic strategy does not keep the upper half of the range:
   from size 15 with far limit 16, a step of 2 lands on 17, and from
   there every further `ZoomOut` grows the size again.
   */
  lemma OrthographicZoomOutOvershoots()
    ensures var cam := Camera(15.0, Zero);
            var z := ZoomOut(Orthographic, cam, 2.0, 16.0);
            && InRange(Zoomed(Orthographic, cam), 2.0, 16.0)
            && z.camera.orthographicSize == 17.0
            && ZoomOut(Orthographic, z.camera, 2.0, 16.0).camera.orthographicSize == 19.0
  {
  }

  /**
   Repeated orthographic `ZoomOut` calls above the far limit grow the size
   without bound: `n` calls with step `delta` add `n * delta`.
   */
  lemma {:induction false} OrthographicZoomOutUnbounded(cam: Camera, delta: real, farZoomLimit: real, n: nat)
    requires cam.orthographicSize > farZoomLimit
    requires delta >= 0.0
    ensures RepeatZoomOut(cam, delta, farZoomLimit, n).orthographicSize == cam.orthographicSize + (n as real) * delta
  {
    if n > 0 {
      OrthographicZoomOutUnbounded(cam, delta, farZoomLimit, n - 1);
    }
  }

  /** `n` consecutive orthographic `ZoomOut` calls with the same step. */
  function RepeatZoomOut(cam: Camera, delta: real, farZoomLimit: real, n: nat): Camera {
    if n == 0 then cam
    else ZoomOut(Orthographic, RepeatZoomOut(cam, delta, farZoomLimit, n - 1), delta, farZoomLimit).camera
  }
}
